=== FILE: README.md ===
# Jolokia service and system-properties view — a Dafny model

This project models two parts of the hawtio web console in Dafny.

The first is the **Jolokia service** (`jolokia-service.ts`). It finds the Jolokia agent the console talks to and builds and caches the Jolokia client. It installs the request decorator that adds an authorisation header, and negotiates whether `list` can use the optimised RBACRegistry operations. It wraps the client's callbacks into promises for the listing, read, write, execute, search and bulk requests. It watches for a lost connection and keeps three preferences in local storage.

The second is the **list logic of the system-properties view** (`SysProps.tsx`):
- the live search on the name or the value;
- filter chips `attribute:term` that narrow the list further;
- deleting one chip or clearing all of them;
- pagination.

Everything is a pure function over explicit values. The service is a `Service` value holding:
- the cached URL outcome;
- the cached client outcome;
- the list configuration;
- jQuery's global `beforeSend`.

Each operation returns the service as it leaves it. A cached promise is modelled by what it settles with, so a rejected one is a `Failure`. The outside world is an `Environment` parameter: login state, tokens, the current connection, cookies, local storage, and the network's answers to probes and to the optimisation query. The transport's callbacks arrive as a `Reply`. Timers are explicit events.

Modules, one per concern of the source:

| module | file | models |
|---|---|---|
| `Wrappers` | wrappers.dfy | `Option`, `Result`, JavaScript truthiness of optional strings |
| `Json` | json.dfy | the JSON values the service reads, and the JSON text of integers and of flat integer objects |
| `Preferences` | preferences.dfy | `loadUpdateRate`, `saveUpdateRate`, `loadAutoRefresh`, `saveAutoRefresh`, `loadJolokiaStoredOptions`, `saveJolokiaStoredOptions` |
| `Discovery` | discovery.dfy | `initJolokiaUrl`, `tryProbeJolokiaPath` |
| `Auth` | auth.dfy | `beforeSend` |
| `ConnectionMonitor` | monitor.dfy | `ajaxError` |
| `Facade` | facade.dfy | `doList`, `readAttributes`, `readAttribute`, `writeAttribute`, `execute`, `search` |
| `Bulk` | bulk.dfy | `bulkRequest` |
| `JolokiaService` | service.dfy | `reset`, `getJolokiaUrl`, `getJolokia`, `createJolokia`, `checkListOptimisation`, `getListMethod`, `list`/`sublist`, `getFullJolokiaUrl` |
| `SysProps` | sysprops.dfy | `handleSearch`, `addToFilters`, `onDeleteFilter`, `clearFilters`, the drop-down, the pager and `getPageProperties` |

Facts about the code that the model keeps:
- The storage keys are `connect.jolokia.options`, `connect.jolokia.updateRate` and `connect.jolokia.autoRefresh`.
- A failed list-method negotiation (an error response or an ajax failure) leaves the method as it was. It does not become "undetermined". Only a successful reply without an `op` object gives "undetermined".
- The "connection lost" notification is raised on every failure while the count is above 2, not once per crossing (`ConnectionMonitor.ThirdAndFourthFailureNotify`).
- A stored listing limit is replaced by its default only when it is missing or 0, as JavaScript's `||` does. A negative stored limit is kept.

## Model

| member | source | states |
|---|---|---|
| `Json.IntTextRoundTrip` | packages/hawtio/src/plugins/shared/jolokia-service.ts:588-595 | in exact integer arithmetic, reading back the JSON text of any integer, negative and 0 included, gives that integer |
| `Json.IntTextCanonical` | packages/hawtio/src/plugins/shared/jolokia-service.ts:588-591 | in exact integer arithmetic, any text the loader accepts as an integer, other than "-0", is exactly the text that integer is written as |
| `Json.ObjectTextRoundTrip` | packages/hawtio/src/plugins/shared/jolokia-service.ts:606-616 | parsing the JSON text of a flat object with plain keys gives back its fields, a later duplicate key winning |
| `Json.ControlCharacterKeyRefused` | packages/hawtio/src/plugins/shared/jolokia-service.ts:606-608 | an object whose key holds a raw control character does not parse, as `JSON.parse` refuses it |
| `Preferences.LoadUpdateRate` | packages/hawtio/src/plugins/shared/jolokia-service.ts:588-591 | with nothing stored or an empty text the rate is 5000; a rate read from storage is the integer the stored text denotes, read exactly |
| `Preferences.UpdateRateRoundTrip` | packages/hawtio/src/plugins/shared/jolokia-service.ts:588-595 | a saved update rate of magnitude below 10^21 (the range `JSON.stringify` writes in plain digits) reads back unchanged, whatever the rest of the storage holds |
| `Preferences.LoadAutoRefresh` | packages/hawtio/src/plugins/shared/jolokia-service.ts:597-600 | with nothing stored the flag is false; otherwise it is `parseBoolean` of the stored text |
| `Preferences.AutoRefreshRoundTrip` | packages/hawtio/src/plugins/shared/jolokia-service.ts:597-604 | a saved flag reads back unchanged, given that `parseBoolean` reads "true" as true and "false" as false |
| `Preferences.LoadJolokiaStoredOptions` | packages/hawtio/src/plugins/shared/jolokia-service.ts:606-612 | with nothing stored the limits are 7 and 50000; a stored object gives limits if and only if it parses; each limit is the stored field when present and not 0, and its default otherwise, field by field; loaded limits are never 0 |
| `Preferences.OptionsTextFields` | packages/hawtio/src/plugins/shared/jolokia-service.ts:614-616 | the saved limits text parses to exactly the two fields `maxDepth` and `maxCollectionSize` |
| `Preferences.StoredOptionsRoundTrip` | packages/hawtio/src/plugins/shared/jolokia-service.ts:606-616 | saved limits read back unchanged, except that a 0 limit reads back as its default |
| `Preferences.SaveUpdateRate` | packages/hawtio/src/plugins/shared/jolokia-service.ts:593-595 | the update-rate key holds a text afterwards and every other key holds what it held before |
| `Preferences.SaveAutoRefresh` | packages/hawtio/src/plugins/shared/jolokia-service.ts:602-604 | the auto-refresh key holds "true" or "false" as the flag is, and every other key holds what it held before |
| `Preferences.SaveJolokiaStoredOptions` | packages/hawtio/src/plugins/shared/jolokia-service.ts:614-616 | the options key holds a text that parses to exactly the fields `maxDepth` and `maxCollectionSize` with the given limits, and every other key holds what it held before |
| `Preferences.MissingFieldTakesDefault` | packages/hawtio/src/plugins/shared/jolokia-service.ts:606-612 | stored options with only `maxDepth` load that depth (its default when 0) and the default collection size |
| `Preferences.KeysDistinct` | packages/hawtio/src/plugins/shared/jolokia-service.ts:79-81 | the three storage keys are pairwise different |
| `Preferences.SavingOptionsKeepsOthers` | packages/hawtio/src/plugins/shared/jolokia-service.ts:614-616 | saving the limits leaves the update rate and the auto-refresh flag as they read before |
| `Preferences.SavingUpdateRateKeepsOthers` | packages/hawtio/src/plugins/shared/jolokia-service.ts:593-595 | saving the update rate leaves the flag and the limits as they read before |
| `Preferences.SavingAutoRefreshKeepsOthers` | packages/hawtio/src/plugins/shared/jolokia-service.ts:602-604 | saving the flag leaves the update rate and the limits as they read before |
| `Discovery.ProbePaths` | packages/hawtio/src/plugins/shared/jolokia-service.ts:181-191 | the paths probed are a prefix of the candidates in order; every probed path but the last was refused; a found path is the last one probed and was accepted (200 with `value.agent`, or 401/403); nothing found means every candidate was probed and refused; the acceptance rule (`Discovery.Accepts`) is that of `tryProbeJolokiaPath` at jolokia-service.ts:194-227 |
| `Discovery.InitJolokiaUrl` | packages/hawtio/src/plugins/shared/jolokia-service.ts:167-192 | not logged in rejects without probing; a current connection gives its URL without probing; otherwise the result is that of probing "jolokia", "/hawtio/jolokia", "/jolokia" in order, or null |
| `Discovery.FirstPathShortCircuits` | packages/hawtio/src/plugins/shared/jolokia-service.ts:181-188 | when "jolokia" answers like an agent it is the URL and no other path is probed |
| `Auth.BeforeSend` | packages/hawtio/src/plugins/shared/jolokia-service.ts:262-293 | for each of the five outcomes (user token, connection token, connection credentials, XSRF cookie, nothing): it is chosen if and only if its own condition holds and no earlier condition does, and it carries the matching header |
| `Auth.HeaderAtSend` | packages/hawtio/src/plugins/shared/jolokia-service.ts:268-279 | the user-token decorator reads the token afresh on each request and sends no header when it is gone; the others send their fixed header |
| `Auth.BeforeSendIsFirstMatch` | packages/hawtio/src/plugins/shared/jolokia-service.ts:262-293 | the decorator equals the first applicable rule of the priority chain, or no header when none applies |
| `ConnectionMonitor.AuthEffects` | packages/hawtio/src/plugins/shared/jolokia-service.ts:300-322 | on 401/403: redirect to the login page when the page was opened for a remote connection and is not the login page; nothing on the login page; a logout of a logged-in user otherwise |
| `ConnectionMonitor.OnAjaxError` | packages/hawtio/src/plugins/shared/jolokia-service.ts:295-342 | a 401/403 leaves the count alone and its effects are exactly the login reaction of `AuthEffects`, then the waiter's release when there is one; with a readable rate the effects of any other failure are exactly one decrement, the notification when due, and the release when there is one; any other failure raises it by one; when the stored rate is readable it schedules one decrement after three update periods and notifies, with duration rate - 100, when the new count is above 2; when reading the rate throws, nothing is scheduled or notified; the waiter is released, as the last effect, if and only if there is one and the handler did not throw |
| `ConnectionMonitor.OnTimer` | packages/hawtio/src/plugins/shared/jolokia-service.ts:326-327 | a scheduled decrement lowers the count by one and consumes that decrement |
| `ConnectionMonitor.Handle` | packages/hawtio/src/plugins/shared/jolokia-service.ts:323-327 | the count never drops below the pending decrements, so it never goes negative; with a readable rate one event keeps the count equal to the pending decrements; a failure whose rate read throws leaves the count one above them |
| `ConnectionMonitor.Run` | packages/hawtio/src/plugins/shared/jolokia-service.ts:323-327 | any sequence of failures and timer events keeps the count non-negative and at least the pending decrements, and balanced while the rate is readable |
| `ConnectionMonitor.FailuresCount` | packages/hawtio/src/plugins/shared/jolokia-service.ts:324-327 | k failures from count c with d decrements pending leave the count at c + k, with d + k decrements pending when the rate is readable and d when reading it throws |
| `ConnectionMonitor.NotificationCount` | packages/hawtio/src/plugins/shared/jolokia-service.ts:323-335 | k failures from count c notify once for each failure that takes the count above 2 when the rate is readable, and never when reading it throws |
| `ConnectionMonitor.ThirdAndFourthFailureNotify` | packages/hawtio/src/plugins/shared/jolokia-service.ts:328-335 | from a fresh handler with a readable rate, two failures do not notify, three notify once, four notify twice; none notify when reading the rate throws |
| `ConnectionMonitor.FreshHandlerNeverNotifies` | packages/hawtio/src/plugins/shared/jolokia-service.ts:373-376 | the handler built for the negotiation query starts fresh and never notifies on its one failure; it releases the negotiation if and only if the failure is a 401/403 or the rate is readable |
| `ConnectionMonitor.UnreadableRateSticks` | packages/hawtio/src/plugins/shared/jolokia-service.ts:324-326 | while reading the rate throws, k failures leave the count k above the decrements that will ever run |
| `ConnectionMonitor.StoredRateSetsWindow` | packages/hawtio/src/plugins/shared/jolokia-service.ts:324-326 | a failure after saving the update rate schedules its decrement after three saved periods; with no rate stored, after 15000 ms |
| `Facade.ListCallFor` | packages/hawtio/src/plugins/shared/jolokia-service.ts:449-472 | optimised mode calls the MBean's `list()` or `list(java.lang.String)` with the path and forces depth 9; the other modes issue a plain list with the caller's path and depth |
| `Facade.ListOutcome` | packages/hawtio/src/plugins/shared/jolokia-service.ts:432-448 | listing never stays pending: it resolves with the value on success and rejects on an error response and on an ajax failure |
| `Facade.ReadAttributes` | packages/hawtio/src/plugins/shared/jolokia-service.ts:476-490 | never rejects; resolves with the response value, or with `{}` on an error response; stays pending on an ajax failure |
| `Facade.ReadAttribute` | packages/hawtio/src/plugins/shared/jolokia-service.ts:492-506 | never rejects; resolves with the response value, or with `null` on an error response; stays pending on an ajax failure |
| `Facade.WriteAttribute` | packages/hawtio/src/plugins/shared/jolokia-service.ts:508-522 | never rejects; resolves with the response value, or with `null` on an error response; stays pending on an ajax failure |
| `Facade.Search` | packages/hawtio/src/plugins/shared/jolokia-service.ts:539-553 | never rejects; resolves with the found names, or with `[]` on an error response; stays pending on an ajax failure |
| `Facade.Execute` | packages/hawtio/src/plugins/shared/jolokia-service.ts:524-537 | resolves with the response value on success, and only then; stays pending exactly on an ajax failure; on an error response rejects with the stack trace when it is non-empty and with the error text otherwise |
| `Facade.OnlyListAndExecuteReject` | packages/hawtio/src/plugins/shared/jolokia-service.ts:426-553 | of all request operations only listing and execute can reject, and only listing rejects on an ajax failure |
| `Bulk.Run` | packages/hawtio/src/plugins/shared/jolokia-service.ts:558-568 | the collected list is exactly the success responses in arrival order; one callback is `Bulk.Step`, the success and error handlers of jolokia-service.ts:562-572 |
| `Bulk.Settlement` | packages/hawtio/src/plugins/shared/jolokia-service.ts:555-576 | the promise settles if and only if some callback is an error or brings the count to the number of requests; it settles with what was collected up to the first such callback |
| `Bulk.AllSucceed` | packages/hawtio/src/plugins/shared/jolokia-service.ts:562-567 | while every request succeeds, the responses are collected in order, and the promise resolves with all of them exactly when the last arrives |
| `Bulk.ErrorResolvesEarly` | packages/hawtio/src/plugins/shared/jolokia-service.ts:569-572 | an error that settles the promise resolves it with fewer responses than requests |
| `Bulk.SuccessResolvesComplete` | packages/hawtio/src/plugins/shared/jolokia-service.ts:562-567 | a success that settles the promise resolves it with as many responses as requests |
| `JolokiaService.Reset` | packages/hawtio/src/plugins/shared/jolokia-service.ts:116-123 | forgets the URL and the client, restores the default method with the RBACRegistry MBean, and leaves the installed decorator in place |
| `JolokiaService.GetJolokiaUrl` | packages/hawtio/src/plugins/shared/jolokia-service.ts:134-141 | a cached outcome is returned unchanged, a rejection included; otherwise the discovery outcome is returned and cached |
| `JolokiaService.CheckListOptimisation` | packages/hawtio/src/plugins/shared/jolokia-service.ts:350-378 | a successful reply selects the optimised method if and only if its `op` member is an object, and the undetermined method otherwise; a failure leaves the method unchanged |
| `JolokiaService.CreateJolokia` | packages/hawtio/src/plugins/shared/jolokia-service.ts:229-260 | resolves the URL first and keeps it and any client already cached; a failed URL fails the client; a null or empty URL gives the stub client; otherwise it installs the request decorator unless one is installed, fails when the stored limits cannot be read, and else builds a live client on that URL with the stored limits and a fresh monitor (the client holds only the monitor's initial state; the monitor's later steps are `ConnectionMonitor.Run`) and negotiates the list method from the registry's reply |
| `JolokiaService.GetJolokia` | packages/hawtio/src/plugins/shared/jolokia-service.ts:143-165 | a cached client outcome is returned unchanged; without one, the service is the one `CreateJolokia` leaves, negotiated method included, with the outcome cached; the outcome is `CreateJolokia`'s, except that a live client whose stored update rate cannot be read (the start hook's `loadUpdateRate()` throws) fails |
| `JolokiaService.GetListMethod` | packages/hawtio/src/plugins/shared/jolokia-service.ts:412-416 | the method is read only after the client exists, and reflects its negotiation |
| `JolokiaService.List` | packages/hawtio/src/plugins/shared/jolokia-service.ts:418-474 | a client failure rejects without calling; otherwise the call is the one for the negotiated method and the outcome is the listing outcome; it is never left pending |
| `JolokiaService.FullUrl` | packages/hawtio/src/plugins/shared/jolokia-service.ts:397-410 | the URL is a suffix of the result; an absolute URL is returned as it is; a URL starting with '/' gets the origin in front; any other gets the origin, the base path and a '/' in front; an absolute origin gives an absolute result |
| `JolokiaService.FullUrlIdempotent` | packages/hawtio/src/plugins/shared/jolokia-service.ts:397-410 | with an absolute origin, making an already full URL full again changes nothing |
| `JolokiaService.GetJolokiaMemoised` | packages/hawtio/src/plugins/shared/jolokia-service.ts:143-165 | asking for the client a second time returns the first outcome and changes nothing, whatever the environment is then |
| `JolokiaService.ResetRenegotiates` | packages/hawtio/src/plugins/shared/jolokia-service.ts:116-123 | after a reset the URL is discovered afresh, and the list method is optimised if and only if a live client is built and started (the stored update rate is readable) and the registry's list reply has an object-valued `op` |
| `JolokiaService.UnreadableRateRejectsClient` | packages/hawtio/src/plugins/shared/jolokia-service.ts:143-165 | when the start hook cannot read the update rate, asking for the list method and listing both reject with that failure, listing without a call, while the negotiated method stays in the configuration |
| `JolokiaService.GetFullJolokiaUrl` | packages/hawtio/src/plugins/shared/jolokia-service.ts:397-410 | rejects exactly when resolving the URL rejects; otherwise gives the full form of that URL |
| `SysProps.KeepContents` | packages/hawtio/src/plugins/runtime/SysProps.tsx:91-93 | `filter` keeps the elements that pass, in order and each as often as before, and drops the others |
| `SysProps.IncludesIffOccurs` | packages/hawtio/src/plugins/runtime/SysProps.tsx:92 | `includes` holds if and only if the term occurs at some index of the text |
| `SysProps.EmptyTermMatches` | packages/hawtio/src/plugins/runtime/SysProps.tsx:88-94 | every property matches the empty term, so the empty-search shortcut shows what filtering would |
| `SysProps.Search` | packages/hawtio/src/plugins/runtime/SysProps.tsx:88-94 | the search result holds the properties whose key (for "name") or value contains the term case-insensitively, each as often as loaded, and no others |
| `SysProps.ParseChipAsWritten` | packages/hawtio/src/plugins/runtime/SysProps.tsx:98-99 | as the view reads a chip, neither attribute nor term contains ':' |
| `SysProps.ParseChip` | packages/hawtio/src/plugins/runtime/SysProps.tsx:98-99 | the attribute is the text before the first ':' and the term all the rest; a chip without ':' has an empty term |
| `SysProps.ChipRoundTrip` | packages/hawtio/src/plugins/runtime/SysProps.tsx:52-55 | reading a chip made by `addToFilters` gives back the attribute and the whole search term |
| `SysProps.ParsersAgree` | packages/hawtio/src/plugins/runtime/SysProps.tsx:97-103 | the view's reading and the whole-term reading agree on every chip whose term has no ':' |
| `SysProps.ChipAsWrittenTruncates` | packages/hawtio/src/plugins/runtime/SysProps.tsx:98-99 | as the view reads a chip, its term stops at the first ':' inside it |
| `SysProps.ChipAsWrittenLosesTerm` | packages/hawtio/src/plugins/runtime/SysProps.tsx:98-99 | the chip "value:http://x" filters on "http" as the view reads it |
| `SysProps.ApplyChipsIsKeep` | packages/hawtio/src/plugins/runtime/SysProps.tsx:97-103 | applying the chips one after another is a single filter by all of them |
| `SysProps.FilterIsOneKeep` | packages/hawtio/src/plugins/runtime/SysProps.tsx:83-108 | the computed list is one filter of the loaded properties by the search and every chip |
| `SysProps.Filter` | packages/hawtio/src/plugins/runtime/SysProps.tsx:83-108 | with whole-term chips, the list is a subsequence of the loaded properties holding each property that matches the search and every chip as often as loaded, and no other |
| `SysProps.FilterAsWritten` | packages/hawtio/src/plugins/runtime/SysProps.tsx:83-108 | the same, with chips read as the view reads them |
| `SysProps.FilterContents` | packages/hawtio/src/plugins/runtime/SysProps.tsx:83-108 | a property is listed if and only if it matches the search and every chip, as often as loaded, in load order |
| `SysProps.ChipNarrows` | packages/hawtio/src/plugins/runtime/SysProps.tsx:97-103 | an extra chip never adds a property to the list |
| `SysProps.Loaded` | packages/hawtio/src/plugins/runtime/SysProps.tsx:39-44 | once loaded, the shown list is the whole loaded list, with no term or chips, the pager on page 1 and the default page size, and the view is consistent |
| `SysProps.HandleSearch` | packages/hawtio/src/plugins/runtime/SysProps.tsx:83-108 | for either reading of chips: sets the term, goes back to page 1, and lists exactly the loaded properties matching the term and every chip so read, in order |
| `SysProps.OnSearchChange` | packages/hawtio/src/plugins/runtime/SysProps.tsx:175-183 | for either reading of chips: typing keeps the loaded properties, the page size, the attribute and the chips, goes back to page 1, and leaves the list the one term, attribute and chips compute |
| `SysProps.SelectAttribute` | packages/hawtio/src/plugins/runtime/SysProps.tsx:115-120 | for either reading of chips: choosing an attribute re-runs the search on it, keeping the loaded properties, the page size, the term and the chips, and goes back to page 1 |
| `SysProps.AddToFilters` | packages/hawtio/src/plugins/runtime/SysProps.tsx:52-55 | appends the chip `attribute:term`, empties the search box, and leaves the loaded properties, the shown list, the attribute, the page and the page size as they are |
| `SysProps.DeleteFilter` | packages/hawtio/src/plugins/runtime/SysProps.tsx:46-50 | for either reading of chips: removes every copy of the chip, keeps the other chips in order and number, keeps the loaded properties, the page size, the term and the attribute, goes back to page 1, and recomputes the list |
| `SysProps.ClearFilters` | packages/hawtio/src/plugins/runtime/SysProps.tsx:56-60 | no chips, no term, the whole loaded list on page 1; the loaded properties, the page size and the attribute are kept |
| `SysProps.SetPage` | packages/hawtio/src/plugins/runtime/SysProps.tsx:68 | selecting a page changes only the page: the loaded properties, the shown list, the page size, the term, the chips and the attribute are kept |
| `SysProps.SetPerPage` | packages/hawtio/src/plugins/runtime/SysProps.tsx:69-72 | selecting a page size goes back to page 1 and keeps the loaded properties, the shown list, the term, the chips and the attribute |
| `SysProps.AddToFiltersKeepsConsistent` | packages/hawtio/src/plugins/runtime/SysProps.tsx:52-55 | with whole-term chips, turning the search into a chip keeps the shown list the one the chips compute |
| `SysProps.AddToFiltersAsWrittenWidens` | packages/hawtio/src/plugins/runtime/SysProps.tsx:97-103 | with the view's reading, a view consistent with the search "a:b" on values is no longer consistent once that search becomes a chip, and the next recomputation lists a property whose value is only "a" |
| `SysProps.PageProperties` | packages/hawtio/src/plugins/runtime/SysProps.tsx:78-82 | for a page and page size of at least 1, the rows are the shown list's rows from (page - 1) * perPage on, perPage of them or as many as remain |
| `SysProps.PageWindow` | packages/hawtio/src/plugins/runtime/SysProps.tsx:78-82 | a slice of perPage rows from a row is that window of the list |
| `SysProps.PageStartIsProduct` | packages/hawtio/src/plugins/runtime/SysProps.tsx:79 | the first row of page p is (p - 1) * perPage |
| `SysProps.PageOf` | packages/hawtio/src/plugins/runtime/SysProps.tsx:78-82 | a page holds at most perPage rows: the part of the list from its first row up to the next page's first row |
| `SysProps.PagesCover` | packages/hawtio/src/plugins/runtime/SysProps.tsx:78-82 | pages 1 to k, one after another, are the list up to the start of page k + 1, with nothing skipped or repeated |
| `SysProps.AllPages` | packages/hawtio/src/plugins/runtime/SysProps.tsx:78-82 | once k pages can hold the list, pages 1 to k are exactly the list |
| `SysProps.ItemOnItsPage` | packages/hawtio/src/plugins/runtime/SysProps.tsx:78-82 | item i is on page i / perPage + 1, at row i % perPage |

## Left out

- The Jolokia client library and jQuery's transport are not modelled. Their callbacks are inputs (`Reply`, `ProbeReply`, `Callback`). The client's fixed options (POST, JSON, no canonical naming, ignore errors) are not represented.
- The stub client's canned replies are left out. It only shows up as `Client.Dummy`, used when no URL was found.
- The `await this.getJolokia()` that opens every request operation is modelled only in `JolokiaService.List`; `Facade` takes the reply of an existing client, and a client failure would reject the other operations the same way.
- `register` and `unregister` pass their arguments to the client unchanged, so they are left out.
- The version query after a client is built is left out: it only logs. Of the start of polling, only the read of the update rate is modelled, as a failure of `JolokiaService.GetJolokia` where it throws; the polling timer itself is left out.
- JolokiaService.GetJolokia: a stored update rate that `JSON.parse` accepts but that is not an integer literal ("null", a float, a numeric string) makes the model fail the client. The source does not throw there: it starts polling with NaN or with the integer `parseInt` gives.
- Timers, promise scheduling and concurrency are left out:
  - two overlapping calls sharing one pending promise are modelled as one call followed by another;
  - a decrement's timer is an explicit `TimerFired` event.
- Logging is left out.
- Browser details are left out: the exact redirect URL built on a 401/403, `window.location`, and the base path. The origin and base path are parameters.
- The helpers `parseBoolean`, `basicAuthHeaderValue`, `getCookie` and `escapeMBeanPath` are not part of this model:
  - `parseBoolean` is a function parameter;
  - basic credentials stay symbolic;
  - the cookie is an input;
  - the escaped MBean path of the optimisation query is not represented.
- JSON text is modelled only as far as the preferences need it: integers, and flat objects of integer fields with plain keys (no quote, backslash or control character). Integers are read exactly, not as doubles. Whitespace, escapes, floating-point numbers and nested values are not modelled. A text `JSON.parse` would refuse loads as `None`, which stands for the exception the source lets escape. A text it would accept but that falls outside this subset also loads as `None`.
- Preferences.LoadUpdateRate: stored text that is a JSON value other than an integer literal (a float, a numeric string) loads as `None`. In the source, `parseInt` would truncate or parse it. An integer literal is read exactly by the model, where the source goes through a double: above 2^53 the value is rounded, and from 10^21 on `parseInt` reads the exponent form back as its leading digit.
- Json.IntTextRoundTrip: stated for the model's exact integer codec. A JavaScript number is a double, so the source's round trip holds only for integers a double represents, and in plain digits only below 10^21.
- Json.IntTextCanonical: stated for the model's exact integer codec. The source's loader reads a literal above 2^53 as the nearest double, whose text can differ ("9007199254740993" reads as 9007199254740992).
- Preferences.UpdateRateRoundTrip: stated for magnitudes below 10^21 only. `JSON.stringify` writes larger ones in exponent notation, which `parseInt` reads back as its leading digit.
- ConnectionMonitor.OnAjaxError: a stored rate that is valid JSON but not a number ("null", say) gives NaN in the source: the decrement fires at once and the notification has a NaN duration. The model treats it like the throw: nothing is scheduled or notified.
- JolokiaService.CreateJolokia: stored options that `JSON.parse` accepts but that fall outside the modelled JSON (whitespace, floats, nested values) make the model fail with `OptionsUnreadable`, where the source builds the client.
- JolokiaService.CreateJolokia: when the optimisation query fails in transport and reading the update rate throws, the source's negotiation never settles. The model settles it with the method unchanged.
- Bulk.Run: the source resolves with the same array object that later success callbacks keep appending to. The model records the list as it was when the promise resolved.
- The sort of the property table (`sortProperties`) is left out. It sorts the shown list in place when a column is chosen. With a sort column, the shown list is a permutation of the modelled one, so the multiplicity statements still hold but the order statements do not.
- `Lower` folds ASCII letters only. JavaScript's `toLowerCase` folds all of Unicode.
- The React rendering, the drop-down's open state and the loading of the properties from the runtime service are left out. `Loaded` takes the loaded list as given.

## Findings

| source | as written | input that shows it | evidently intended | confidence | as-written member | corrected member |
|---|---|---|---|---|---|---|
| packages/hawtio/src/plugins/runtime/SysProps.tsx:98-99 | a chip's term is `split(':')[1]`, the text between the first and the second ':' | search "http://x" on values and add it as a chip: the chip "value:http://x" filters on "http", so the list widens on the next recomputation | the term is everything after the first ':', the search the chip was made from | not executed | `SysProps.AddToFiltersAsWrittenWidens` | `SysProps.AddToFiltersKeepsConsistent` |

The view's handlers take the chip reading as a parameter `read`: `SysProps.ParseChipAsWritten` is the view as written, and every handler contract holds for either reading. `SysProps.Filter` and `SysProps.AddToFiltersKeepsConsistent` use the whole-term reading (`SysProps.ParseChip`). `SysProps.ParsersAgree` shows that it matches the view exactly on every chip whose term has no ':'.

=== FILE: auth.dfy ===
/** The request decorator installed as jQuery's `beforeSend` before the first client is
    built: which authorisation header every request carries. The first matching rule of a
    fixed priority chain wins. */
module Auth {
  import opened Wrappers

  const AuthorizationHeader: string := "Authorization"
  const XsrfHeader: string := "X-XSRF-TOKEN"

  /** The credentials of the current remote connection; every field may be missing. */
  datatype Connection = Connection(token: Option<string>, username: Option<string>, password: Option<string>)

  /** A header value; basic credentials are kept symbolic (their encoding helper is not
      part of this model). */
  datatype HeaderValue = Bearer(token: string) | BasicCredentials(username: string, password: string) | Plain(text: string)

  datatype Header = Header(name: string, value: HeaderValue)

  /** The installed decorator: the logged-in user's token read afresh on every request,
      a header fixed when the decorator was built, or nothing. */
  datatype Decorator = UserTokenBearer | SetHeader(header: Header) | NoHeader

  /** The connection's token, when truthy. */
  predicate HasConnectionToken(c: Option<Connection>) {
    c.Some? && Truthy(c.value.token)
  }

  /** The connection's username and password, when both are truthy. */
  predicate HasConnectionCredentials(c: Option<Connection>) {
    c.Some? && Truthy(c.value.username) && Truthy(c.value.password)
  }

  /** `beforeSend`: (1) logged in with a token, (2) connection token, (3) connection username
      and password, (4) XSRF-TOKEN cookie, (5) nothing. */
  function BeforeSend(loggedIn: bool, userToken: Option<string>, connection: Option<Connection>,
                      xsrfCookie: Option<string>): (d: Decorator)
    ensures d == UserTokenBearer <==> loggedIn && Truthy(userToken)
    ensures d.SetHeader? && d.header.value.Bearer? <==>
              !(loggedIn && Truthy(userToken)) && HasConnectionToken(connection)
    ensures d.SetHeader? && d.header.value.Bearer? ==>
              d.header == Header(AuthorizationHeader, Bearer(connection.value.token.value))
    ensures d.SetHeader? && d.header.value.BasicCredentials? <==>
              !(loggedIn && Truthy(userToken)) && !HasConnectionToken(connection) && HasConnectionCredentials(connection)
    ensures d.SetHeader? && d.header.value.BasicCredentials? ==>
              d.header == Header(AuthorizationHeader,
                                 BasicCredentials(connection.value.username.value, connection.value.password.value))
    ensures d.SetHeader? && d.header.value.Plain? <==>
              !(loggedIn && Truthy(userToken)) && !HasConnectionToken(connection)
              && !HasConnectionCredentials(connection) && Truthy(xsrfCookie)
    ensures d.SetHeader? && d.header.value.Plain? ==> d.header == Header(XsrfHeader, Plain(xsrfCookie.value))
    ensures d == NoHeader <==>
              !(loggedIn && Truthy(userToken)) && !HasConnectionToken(connection)
              && !HasConnectionCredentials(connection) && !Truthy(xsrfCookie)
  {
    if loggedIn && Truthy(userToken) then UserTokenBearer
    else if HasConnectionToken(connection) then
      SetHeader(Header(AuthorizationHeader, Bearer(connection.value.token.value)))
    else if HasConnectionCredentials(connection) then
      SetHeader(Header(AuthorizationHeader,
                       BasicCredentials(connection.value.username.value, connection.value.password.value)))
    else if Truthy(xsrfCookie) then SetHeader(Header(XsrfHeader, Plain(xsrfCookie.value)))
    else NoHeader
  }

  /** The header a request carries, given the user's token at the time it is sent. */
  function HeaderAtSend(d: Decorator, userTokenNow: Option<string>): (h: Option<Header>)
    ensures d.UserTokenBearer? ==>
              h == (if Truthy(userTokenNow) then Some(Header(AuthorizationHeader, Bearer(userTokenNow.value))) else None)
    ensures d.SetHeader? ==> h == Some(d.header)
    ensures d.NoHeader? ==> h.None?
  {
    match d
    case UserTokenBearer =>
      if Truthy(userTokenNow) then Some(Header(AuthorizationHeader, Bearer(userTokenNow.value))) else None
    case SetHeader(header) => Some(header)
    case NoHeader => None
  }

  /** The rules of the chain in priority order, each giving a decorator when it applies. */
  function Rules(loggedIn: bool, userToken: Option<string>, connection: Option<Connection>,
                 xsrfCookie: Option<string>): seq<Option<Decorator>>
  {
    [ if loggedIn && Truthy(userToken) then Some(UserTokenBearer) else None,
      if HasConnectionToken(connection)
      then Some(SetHeader(Header(AuthorizationHeader, Bearer(connection.value.token.value)))) else None,
      if HasConnectionCredentials(connection)
      then Some(SetHeader(Header(AuthorizationHeader,
                                 BasicCredentials(connection.value.username.value, connection.value.password.value))))
      else None,
      if Truthy(xsrfCookie) then Some(SetHeader(Header(XsrfHeader, Plain(xsrfCookie.value)))) else None ]
  }

  /** The decorator of the first rule that applies, or `otherwise`. */
  function FirstMatch(rules: seq<Option<Decorator>>, otherwise: Decorator): (d: Decorator)
    ensures (forall i :: 0 <= i < |rules| ==> rules[i].None?) ==> d == otherwise
    ensures forall i :: 0 <= i < |rules| && rules[i].Some? && (forall j :: 0 <= j < i ==> rules[j].None?) ==>
              d == rules[i].value
    decreases |rules|
  {
    if |rules| == 0 then otherwise
    else if rules[0].Some? then rules[0].value
    else FirstMatch(rules[1..], otherwise)
  }

  /** The decorator chosen is the first matching rule of the chain, and no header otherwise. */
  lemma BeforeSendIsFirstMatch(loggedIn: bool, userToken: Option<string>, connection: Option<Connection>,
                               xsrfCookie: Option<string>)
    ensures BeforeSend(loggedIn, userToken, connection, xsrfCookie) ==
            FirstMatch(Rules(loggedIn, userToken, connection, xsrfCookie), NoHeader)
  {
    var rules := Rules(loggedIn, userToken, connection, xsrfCookie);
    if rules[0].Some? {
    } else if rules[1].Some? {
      assert forall j :: 0 <= j < 1 ==> rules[j].None?;
    } else if rules[2].Some? {
      assert forall j :: 0 <= j < 2 ==> rules[j].None?;
    } else if rules[3].Some? {
      assert forall j :: 0 <= j < 3 ==> rules[j].None?;
    }
  }
}

=== FILE: bulk.dfy ===
/** `bulkRequest`: the transport calls back once per response, in arrival order; the
    success callback appends the response to the collected list and the promise resolves
    once that list is as long as the request list, while the first error callback resolves
    it at once with whatever has been collected. Completion is keyed on the count of
    responses, not on which request each one answers. */
module Bulk {
  import opened Wrappers
  import opened Json

  /** One callback of the bulk request. */
  datatype Callback =
    | OnSuccess(response: Json)
    | OnError(error: string, stacktrace: Option<string>)

  /** The collected responses, and the list the promise resolved with once it has. */
  datatype Bulk = Bulk(collected: seq<Json>, settled: Option<seq<Json>>)

  /** The responses of the success callbacks in `cbs`, in arrival order. */
  function Successes(cbs: seq<Callback>): (r: seq<Json>)
    ensures |r| <= |cbs|
    decreases |cbs|
  {
    if |cbs| == 0 then []
    else
      var last := cbs[|cbs| - 1];
      Successes(cbs[..|cbs| - 1]) + (if last.OnSuccess? then [last.response] else [])
  }

  /** One callback for a request list of length `n`; a promise settles at most once. */
  function Step(n: nat, b: Bulk, cb: Callback): Bulk {
    match cb
    case OnSuccess(resp) =>
      var c := b.collected + [resp];
      Bulk(c, if b.settled.None? && |c| == n then Some(c) else b.settled)
    case OnError(_, _) =>
      Bulk(b.collected, if b.settled.None? then Some(b.collected) else b.settled)
  }

  /** The state after the callbacks `cbs`, for a request list of length `n`. */
  function Run(n: nat, cbs: seq<Callback>): (b: Bulk)
    ensures b.collected == Successes(cbs)
    ensures |b.collected| <= |cbs|
    decreases |cbs|
  {
    if |cbs| == 0 then Bulk([], None)
    else Step(n, Run(n, cbs[..|cbs| - 1]), cbs[|cbs| - 1])
  }

  /** The callback at index k would settle the promise: it is an error, or the success that
      brings the collected count to n. */
  ghost predicate SettlesAt(n: nat, cbs: seq<Callback>, k: int) {
    0 <= k < |cbs| && (cbs[k].OnError? || |Successes(cbs[..k + 1])| == n)
  }

  /** None of the first m callbacks would settle the promise. */
  ghost predicate NoneSettleBefore(n: nat, cbs: seq<Callback>, m: int) {
    forall j :: 0 <= j < m ==> !SettlesAt(n, cbs, j)
  }

  lemma SettlesAtPrefix(n: nat, cbs: seq<Callback>, j: int)
    requires 0 <= j < |cbs| - 1
    ensures SettlesAt(n, cbs, j) == SettlesAt(n, cbs[..|cbs| - 1], j)
  {
    assert cbs[..|cbs| - 1][..j + 1] == cbs[..j + 1];
  }

  /** The promise is settled exactly when some callback settles it, and then with the list
      collected up to the first such callback. */
  lemma {:induction false} Settlement(n: nat, cbs: seq<Callback>)
    ensures Run(n, cbs).settled.None? <==> NoneSettleBefore(n, cbs, |cbs|)
    ensures forall k :: SettlesAt(n, cbs, k) && NoneSettleBefore(n, cbs, k) ==>
              Run(n, cbs).settled == Some(Successes(cbs[..k + 1]))
    decreases |cbs|
  {
    if |cbs| > 0 {
      var p := cbs[..|cbs| - 1];
      var m := |p|;
      Settlement(n, p);
      forall j | 0 <= j < m
        ensures SettlesAt(n, cbs, j) == SettlesAt(n, p, j)
      {
        SettlesAtPrefix(n, cbs, j);
      }
      assert cbs[..m + 1] == cbs;
      var before := Run(n, p);
      if before.settled.Some? {
        forall k | SettlesAt(n, cbs, k) && NoneSettleBefore(n, cbs, k)
          ensures Run(n, cbs).settled == Some(Successes(cbs[..k + 1]))
        {
          assert k < m;
          assert cbs[..k + 1] == p[..k + 1];
        }
      } else {
        assert NoneSettleBefore(n, p, m);
        assert Successes(cbs) == Run(n, cbs).collected;
        assert Run(n, cbs).settled.Some? <==> SettlesAt(n, cbs, m);
        forall k | SettlesAt(n, cbs, k) && NoneSettleBefore(n, cbs, k)
          ensures Run(n, cbs).settled == Some(Successes(cbs[..k + 1]))
        {
          assert k == m;
        }
      }
    }
  }

  /** A success callback for each of `rs`, in order. */
  function SuccessCallbacks(rs: seq<Json>): (cbs: seq<Callback>)
    ensures |cbs| == |rs|
    decreases |rs|
  {
    if |rs| == 0 then [] else SuccessCallbacks(rs[..|rs| - 1]) + [OnSuccess(rs[|rs| - 1])]
  }

  /** While every request succeeds, the first i responses are collected in arrival order and
      the promise resolves with all of them when the i-th is the last. */
  lemma {:induction false} AllSucceed(rs: seq<Json>, n: nat)
    requires |rs| <= n
    ensures Run(n, SuccessCallbacks(rs)) == Bulk(rs, if |rs| == n && n > 0 then Some(rs) else None)
    decreases |rs|
  {
    if |rs| > 0 {
      var p := rs[..|rs| - 1];
      AllSucceed(p, n);
      assert SuccessCallbacks(rs)[..|rs| - 1] == SuccessCallbacks(p);
      assert p + [rs[|rs| - 1]] == rs;
    }
  }

  lemma {:induction false} SuccessesOfPrefix(cbs: seq<Callback>, k: nat)
    requires k < |cbs|
    ensures |Successes(cbs[..k + 1])| <= |Successes(cbs[..k])| + 1
    ensures cbs[k].OnError? ==> Successes(cbs[..k + 1]) == Successes(cbs[..k])
  {
    assert cbs[..k + 1][..k] == cbs[..k];
  }

  /** A count of at least n > 0 is first reached by a success callback that settles. */
  lemma {:induction false} CountReachedBySettle(n: nat, cbs: seq<Callback>, m: nat)
    requires m <= |cbs| && 0 < n <= |Successes(cbs[..m])|
    ensures !NoneSettleBefore(n, cbs, m)
    decreases m
  {
    assert cbs[..0] == [];
    SuccessesOfPrefix(cbs, m - 1);
    if |Successes(cbs[..m - 1])| >= n {
      CountReachedBySettle(n, cbs, m - 1);
    } else {
      assert SettlesAt(n, cbs, m - 1);
    }
  }

  /** When an error settles the promise, it resolves with strictly fewer than n responses
      (n > 0: for an empty request list nothing is ever fewer). */
  lemma ErrorResolvesEarly(n: nat, cbs: seq<Callback>, k: nat)
    requires 0 < n && k < |cbs| && cbs[k].OnError? && NoneSettleBefore(n, cbs, k)
    ensures Run(n, cbs).settled.Some?
    ensures |Run(n, cbs).settled.value| < n
  {
    Settlement(n, cbs);
    SuccessesOfPrefix(cbs, k);
    if |Successes(cbs[..k])| >= n {
      CountReachedBySettle(n, cbs, k);
    }
  }

  /** When a success settles the promise, it resolves with exactly n responses. */
  lemma SuccessResolvesComplete(n: nat, cbs: seq<Callback>, k: nat)
    requires k < |cbs| && cbs[k].OnSuccess? && SettlesAt(n, cbs, k) && NoneSettleBefore(n, cbs, k)
    ensures Run(n, cbs).settled.Some?
    ensures |Run(n, cbs).settled.value| == n
  {
    Settlement(n, cbs);
  }
}

=== FILE: discovery.dfy ===
/** Endpoint discovery: which URL the Jolokia client talks to. A remote connection
    names its URL directly; otherwise the candidate paths are probed in order and the
    first one whose reply looks like a Jolokia agent is taken. */
module Discovery {
  import opened Wrappers
  import opened Json

  /** The candidate paths, in probing order. */
  const JolokiaPaths: seq<string> := ["jolokia", "/hawtio/jolokia", "/jolokia"]

  const NotLoggedIn: string := "User needs to have logged in to use Jolokia service"

  /** What probing a path delivers: the `done` callback with the HTTP status and the body
      (None when it is not JSON), or the `fail` callback with the HTTP status. */
  datatype ProbeReply = Done(status: int, body: Option<Json>) | Fail(status: int)

  /** The acceptance rule of a probe: a 200 whose JSON body has `value.agent`, or a failure
      with 401 or 403 (an agent that wants credentials). */
  predicate Accepts(r: ProbeReply) {
    match r
    case Done(status, body) =>
      && status == 200
      && body.Some?
      && var value := Member(body.value, "value");
         value.Some? && Member(value.value, "agent").Some?
    case Fail(status) => status == 401 || status == 403
  }

  /** The result of probing: the path found, if any, and the paths probed in order. */
  datatype Probing = Probing(found: Option<string>, probed: seq<string>)

  /** Probes `paths` in order and stops at the first that accepts. */
  function ProbePaths(paths: seq<string>, probe: string -> ProbeReply): (d: Probing)
    ensures |d.probed| <= |paths| && d.probed == paths[..|d.probed|]
    ensures forall i :: 0 <= i < |d.probed| - 1 ==> !Accepts(probe(d.probed[i]))
    ensures d.found.Some? ==>
              && |d.probed| > 0
              && d.found.value == d.probed[|d.probed| - 1]
              && Accepts(probe(d.found.value))
    ensures d.found.None? ==>
              && d.probed == paths
              && forall i :: 0 <= i < |paths| ==> !Accepts(probe(paths[i]))
    decreases |paths|
  {
    if |paths| == 0 then Probing(None, [])
    else if Accepts(probe(paths[0])) then Probing(Some(paths[0]), [paths[0]])
    else
      var rest := ProbePaths(paths[1..], probe);
      Probing(rest.found, [paths[0]] + rest.probed)
  }

  /** The outcome of resolving the URL (a failure is the promise rejecting, a None the
      `null` meaning no agent was found) and the paths probed on the way. */
  datatype Resolution = Resolution(url: Result<Option<string>, string>, probed: seq<string>)

  /** `initJolokiaUrl`: needs a logged-in user; a current connection (a truthy name) gives its
      own URL without probing; otherwise the candidate paths are probed. */
  function InitJolokiaUrl(loggedIn: bool, connectionName: Option<string>, connectionUrl: Option<string>,
                          probe: string -> ProbeReply): (r: Resolution)
    ensures !loggedIn ==> r == Resolution(Failure(NotLoggedIn), [])
    ensures loggedIn && Truthy(connectionName) ==> r == Resolution(Success(connectionUrl), [])
    ensures loggedIn && !Truthy(connectionName) ==>
              && r.url.Success?
              && 0 < |r.probed| <= |JolokiaPaths|
              && r.probed == JolokiaPaths[..|r.probed|]
              && (forall i :: 0 <= i < |r.probed| - 1 ==> !Accepts(probe(r.probed[i])))
              && (r.url.value.Some? ==>
                    r.url.value.value == r.probed[|r.probed| - 1] && Accepts(probe(r.url.value.value)))
              && (r.url.value.None? ==>
                    r.probed == JolokiaPaths && forall p :: p in JolokiaPaths ==> !Accepts(probe(p)))
  {
    if !loggedIn then Resolution(Failure(NotLoggedIn), [])
    else if Truthy(connectionName) then Resolution(Success(connectionUrl), [])
    else
      var d := ProbePaths(JolokiaPaths, probe);
      Resolution(Success(d.found), d.probed)
  }

  /** Probing never goes past an accepting path: when "jolokia" accepts, nothing else is probed. */
  lemma FirstPathShortCircuits(probe: string -> ProbeReply)
    requires Accepts(probe("jolokia"))
    ensures InitJolokiaUrl(true, None, None, probe) == Resolution(Success(Some("jolokia")), ["jolokia"])
  {
  }
}

=== FILE: facade.dfy ===
/** The request façade: what each operation of the Jolokia service asks of the
    transport, and how the transport's callbacks settle the promise the operation
    returns. The transport itself is not modelled; its callbacks arrive as a `Reply`. */
module Facade {
  import opened Wrappers
  import opened Json

  /** How `list` is carried out on the current client. */
  datatype ListMethod =
    | Default       // the general LIST operation
    | Optimised     // the list operations of the RBACRegistry MBean
    | Undetermined  // probed without finding them; treated as Default

  /** The MBean providing the optimised list operations. */
  const OptimisedListMBean: string := "hawtio:type=security,name=RBACRegistry"
  /** The listing depth forced in optimised mode. */
  const OptimisedListMaxDepth: int := 9

  /** What the transport delivers for one request: the success callback with the response
      value, the error callback with the error response, or the ajax-error callback with
      the HTTP status and jQuery's error text. */
  datatype Reply<T> =
    | Ok(value: T)
    | Err(error: string, stacktrace: Option<string>)
    | AjaxFail(status: int, errorThrown: string)

  /** What a promise rejected with. */
  datatype Reason =
    | ErrorResponse(error: string, stacktrace: Option<string>)
    | AjaxError(errorThrown: string)
    | Message(text: string)

  /** A façade promise after the transport's callbacks: still pending, resolved or rejected. */
  datatype Outcome<T> = Pending | Resolved(value: T) | Rejected(reason: Reason)

  /** The transport call `list`/`sublist` issues. */
  datatype ListCall =
    | ExecuteList(mbean: string, operation: string, args: seq<string>, maxDepth: Option<int>)
    | PlainList(path: Option<string>, maxDepth: Option<int>)

  /** The call `doList` issues for `path` (None for `list`) under the negotiated method;
      `maxDepth` is the caller's option. */
  function ListCallFor(listMethod: ListMethod, mbean: string, path: Option<string>, maxDepth: Option<int>): (c: ListCall)
    ensures c.ExecuteList? <==> listMethod == Optimised
    ensures c.ExecuteList? ==>
              && c.mbean == mbean
              && c.maxDepth == Some(OptimisedListMaxDepth)
              && (path.None? ==> c.operation == "list()" && c.args == [])
              && (path.Some? ==> c.operation == "list(java.lang.String)" && c.args == [path.value])
    ensures c.PlainList? ==> c.path == path && c.maxDepth == maxDepth
  {
    match listMethod
    case Optimised =>
      if path.None? then ExecuteList(mbean, "list()", [], Some(OptimisedListMaxDepth))
      else ExecuteList(mbean, "list(java.lang.String)", [path.value], Some(OptimisedListMaxDepth))
    case Default => PlainList(path, maxDepth)
    case Undetermined => PlainList(path, maxDepth)
  }

  /** How `list`/`sublist` settles: it overrides the ajax-error callback, so every reply
      settles it, and both kinds of failure reject. */
  function ListOutcome(reply: Reply<Json>): (r: Outcome<Json>)
    ensures !r.Pending?
    ensures r.Resolved? <==> reply.Ok?
    ensures reply.Ok? ==> r == Resolved(reply.value)
    ensures reply.Err? ==> r == Rejected(ErrorResponse(reply.error, reply.stacktrace))
    ensures reply.AjaxFail? ==> r == Rejected(AjaxError(reply.errorThrown))
  {
    match reply
    case Ok(v) => Resolved(v)
    case Err(e, st) => Rejected(ErrorResponse(e, st))
    case AjaxFail(_, text) => Rejected(AjaxError(text))
  }

  /** The remaining operations pass no ajax-error callback of their own: an ajax failure goes
      to the client-wide handler and leaves their promise pending. An error response resolves
      them with `fallback`. */
  function ResolveWithFallback<T>(reply: Reply<T>, fallback: T): (r: Outcome<T>)
    ensures !r.Rejected?
    ensures r.Pending? <==> reply.AjaxFail?
    ensures reply.Ok? ==> r == Resolved(reply.value)
    ensures reply.Err? ==> r == Resolved(fallback)
  {
    match reply
    case Ok(v) => Resolved(v)
    case Err(_, _) => Resolved(fallback)
    case AjaxFail(_, _) => Pending
  }

  /** `readAttributes`: the attribute map, or `{}` on an error response. */
  function ReadAttributes(reply: Reply<Json>): (r: Outcome<Json>)
    ensures !r.Rejected?
    ensures reply.Ok? ==> r == Resolved(reply.value)
    ensures r.Pending? <==> reply.AjaxFail?
    ensures reply.Err? ==> r == Resolved(JObj(map[]))
  {
    ResolveWithFallback(reply, JObj(map[]))
  }

  /** `readAttribute`: the attribute value, or `null` on an error response. */
  function ReadAttribute(reply: Reply<Json>): (r: Outcome<Json>)
    ensures !r.Rejected?
    ensures reply.Ok? ==> r == Resolved(reply.value)
    ensures r.Pending? <==> reply.AjaxFail?
    ensures reply.Err? ==> r == Resolved(JNull)
  {
    ResolveWithFallback(reply, JNull)
  }

  /** `writeAttribute`: the response value, or `null` on an error response. */
  function WriteAttribute(reply: Reply<Json>): (r: Outcome<Json>)
    ensures !r.Rejected?
    ensures reply.Ok? ==> r == Resolved(reply.value)
    ensures r.Pending? <==> reply.AjaxFail?
    ensures reply.Err? ==> r == Resolved(JNull)
  {
    ResolveWithFallback(reply, JNull)
  }

  /** `search`: the matching MBean names, or `[]` on an error response. */
  function Search(reply: Reply<seq<string>>): (r: Outcome<seq<string>>)
    ensures !r.Rejected?
    ensures reply.Ok? ==> r == Resolved(reply.value)
    ensures r.Pending? <==> reply.AjaxFail?
    ensures reply.Err? ==> r == Resolved([])
  {
    ResolveWithFallback(reply, [])
  }

  /** `execute`: resolves with the whole response the success callback receives; on an error
      response rejects with the remote stack trace when it is non-empty, with the error
      message otherwise. */
  function Execute(reply: Reply<Json>): (r: Outcome<Json>)
    ensures r.Resolved? <==> reply.Ok?
    ensures reply.Ok? ==> r == Resolved(reply.value)
    ensures r.Rejected? <==> reply.Err?
    ensures r.Pending? <==> reply.AjaxFail?
    ensures reply.Err? && Truthy(reply.stacktrace) ==> r == Rejected(Message(reply.stacktrace.value))
    ensures reply.Err? && !Truthy(reply.stacktrace) ==> r == Rejected(Message(reply.error))
  {
    match reply
    case Ok(response) => Resolved(response)
    case Err(e, st) => Rejected(Message(if Truthy(st) then st.value else e))
    case AjaxFail(_, _) => Pending
  }

  /** Of all operations only `list`/`sublist` and `execute` ever reject, and only `list`/`sublist`
      rejects on an ajax failure. */
  lemma OnlyListAndExecuteReject(reply: Reply<Json>, names: Reply<seq<string>>)
    ensures !ReadAttributes(reply).Rejected? && !ReadAttribute(reply).Rejected?
    ensures !WriteAttribute(reply).Rejected? && !Search(names).Rejected?
    ensures Execute(reply).Rejected? ==> reply.Err?
    ensures ListOutcome(reply).Rejected? <==> !reply.Ok?
  {
  }
}

=== FILE: json.dfy ===
/** The part of JSON the service reads and writes: a value datatype for parsed
    documents, and the text codec for the two shapes it stores in browser storage —
    a bare integer (`JSON.stringify(5000)`) and a flat object of integer fields
    (`JSON.stringify({maxDepth, maxCollectionSize})`). JSON numbers are modelled as
    integers only; `JSON.stringify` never emits whitespace, so the parser accepts none. */
module Json {
  import opened Wrappers

  /** A JSON value as `JSON.parse` produces it (numbers restricted to integers). */
  datatype Json =
    | JNull
    | JBool(b: bool)
    | JNum(n: int)
    | JStr(s: string)
    | JArr(items: seq<Json>)
    | JObj(fields: map<string, Json>)

  /** The non-null object test used on response values (arrays are objects too). */
  predicate IsObject(j: Json) {
    j.JObj? || j.JArr?
  }

  /** `j?.name`: the named member of an object, undefined (None) otherwise. */
  function Member(j: Json, name: string): Option<Json> {
    if j.JObj? && name in j.fields then Some(j.fields[name]) else None
  }

  // ---------------------------------------------------------------------------
  // Decimal integers
  // ---------------------------------------------------------------------------

  predicate IsDigit(c: char) {
    '0' <= c <= '9'
  }

  predicate AllDigits(s: string) {
    forall i :: 0 <= i < |s| ==> IsDigit(s[i])
  }

  function DigitValue(c: char): nat
    requires IsDigit(c)
  {
    c as int - '0' as int
  }

  function DigitChar(d: nat): (c: char)
    requires d < 10
    ensures IsDigit(c) && DigitValue(c) == d
  {
    ('0' as int + d) as char
  }

  /** Shortest decimal text of a natural number, as `String(n)` writes it. */
  function NatText(n: nat): (s: string)
    ensures |s| > 0 && AllDigits(s)
    ensures s[0] == '0' <==> n == 0
    ensures |s| == 1 <==> n < 10
    decreases n
  {
    if n < 10 then [DigitChar(n)] else NatText(n / 10) + [DigitChar(n % 10)]
  }

  /** The number a string of digits denotes. */
  function DigitsValue(s: string): nat
    requires AllDigits(s)
    decreases |s|
  {
    if |s| == 0 then 0 else DigitsValue(s[..|s| - 1]) * 10 + DigitValue(s[|s| - 1])
  }

  /** A JSON natural-number literal: "0", or digits without a leading zero. */
  predicate IsNatLiteral(s: string) {
    |s| > 0 && AllDigits(s) && (s[0] == '0' ==> |s| == 1)
  }

  /** A character that may occur in a JSON integer literal. */
  predicate IsNumberChar(c: char) {
    c == '-' || IsDigit(c)
  }

  /** Magnitudes from this one on are written by `JSON.stringify` in exponent notation. */
  const PlainNumberBound: int := 1_000_000_000_000_000_000_000

  /** `JSON.stringify` of an integer of magnitude below `PlainNumberBound`, in plain digits. */
  function IntText(n: int): (s: string)
    ensures |s| > 0
    ensures forall i :: 0 <= i < |s| ==> IsNumberChar(s[i])
  {
    if n < 0 then "-" + NatText(-n) else NatText(n)
  }

  /** `JSON.parse` of a JSON integer literal; None where it would throw or not give an integer. */
  function ParseInt(s: string): Option<int> {
    if |s| > 0 && s[0] == '-' then
      if IsNatLiteral(s[1..]) then Some(0 - DigitsValue(s[1..])) else None
    else if IsNatLiteral(s) then Some(DigitsValue(s))
    else None
  }

  lemma {:induction false} NatTextValue(n: nat)
    ensures DigitsValue(NatText(n)) == n
    decreases n
  {
    if n >= 10 {
      var t := NatText(n / 10);
      var s := t + [DigitChar(n % 10)];
      assert s[..|s| - 1] == t;
      NatTextValue(n / 10);
    }
  }

  lemma {:induction false} LeadingDigitPositive(s: string)
    requires |s| > 0 && AllDigits(s) && s[0] != '0'
    ensures DigitsValue(s) > 0
    decreases |s|
  {
    if |s| > 1 {
      LeadingDigitPositive(s[..|s| - 1]);
    }
  }

  lemma {:induction false} NatTextOfLiteral(s: string)
    requires IsNatLiteral(s)
    ensures NatText(DigitsValue(s)) == s
    decreases |s|
  {
    var t := s[..|s| - 1];
    var c := s[|s| - 1];
    if |s| == 1 {
      assert DigitChar(DigitValue(c)) == c;
      assert s == [c];
    } else {
      assert t[0] == s[0];
      LeadingDigitPositive(t);
      NatTextOfLiteral(t);
      var v := DigitsValue(s);
      assert v / 10 == DigitsValue(t) && v % 10 == DigitValue(c);
      assert DigitChar(DigitValue(c)) == c;
      assert s == t + [c];
    }
  }

  /** Reading back what was written gives the same integer. */
  lemma IntTextRoundTrip(n: int)
    ensures ParseInt(IntText(n)) == Some(n)
  {
    var t := NatText(if n < 0 then -n else n);
    NatTextValue(if n < 0 then -n else n);
    if n < 0 {
      assert IntText(n)[1..] == t;
    }
  }

  /** Every integer literal other than "-0" is exactly the text written for its value. */
  lemma IntTextCanonical(s: string, n: int)
    requires ParseInt(s) == Some(n) && s != "-0"
    ensures IntText(n) == s
  {
    if |s| > 0 && s[0] == '-' {
      var t := s[1..];
      assert s == "-" + t;
      assert t != "0";
      LeadingDigitPositive(t);
      NatTextOfLiteral(t);
    } else {
      NatTextOfLiteral(s);
    }
  }

  // ---------------------------------------------------------------------------
  // Flat objects of integer fields: {"key":int,...}
  // ---------------------------------------------------------------------------

  /** Length of the longest prefix of `s` made of number characters. */
  function NumberLength(s: string): (k: nat)
    ensures k <= |s|
    decreases |s|
  {
    if |s| > 0 && IsNumberChar(s[0]) then 1 + NumberLength(s[1..]) else 0
  }

  /** Index of the first '"' in `s`, or |s| when there is none. */
  function QuoteIndex(s: string): (k: nat)
    ensures k <= |s|
    ensures k < |s| ==> s[k] == '"'
    decreases |s|
  {
    if |s| == 0 || s[0] == '"' then 0 else 1 + QuoteIndex(s[1..])
  }

  /** A key JSON.stringify writes without escapes: no quote, no backslash and no control
      character (escapes are not modelled; `JSON.parse` refuses a raw control character). */
  predicate IsPlainKey(k: string) {
    forall i :: 0 <= i < |k| ==> k[i] != '"' && k[i] != '\\' && k[i] >= ' '
  }

  /** Parses a `"key"` at the front of `s`, returning the key and the text after it. */
  function ParseKey(s: string): (r: Option<(string, string)>)
    ensures r.Some? ==> |r.value.1| < |s|
  {
    if |s| == 0 || s[0] != '"' then None
    else
      var k := QuoteIndex(s[1..]);
      if k == |s| - 1 || !IsPlainKey(s[1..k + 1]) then None
      else Some((s[1..k + 1], s[k + 2..]))
  }

  /** Parses a `:int` at the front of `s`, returning the integer and the text after it. */
  function ParseValue(s: string): (r: Option<(int, string)>)
    ensures r.Some? ==> |r.value.1| < |s|
  {
    if |s| == 0 || s[0] != ':' then None
    else
      var num := s[1..];
      var m := NumberLength(num);
      match ParseInt(num[..m])
      case None => None
      case Some(v) => Some((v, num[m..]))
  }

  /** Parses one `"key":int` member at the front of `s`, returning key, value and the rest. */
  function ParseMember(s: string): (r: Option<(string, int, string)>)
    ensures r.Some? ==> |r.value.2| < |s|
  {
    match ParseKey(s)
    case None => None
    case Some((key, after)) =>
      match ParseValue(after)
      case None => None
      case Some((v, rest)) => Some((key, v, rest))
  }

  /** Parses a comma-separated member list, later keys overwriting earlier ones as in JSON.parse. */
  function ParseMembers(s: string, acc: map<string, int>): Option<map<string, int>>
    decreases |s|
  {
    match ParseMember(s)
    case None => None
    case Some((key, v, rest)) =>
      if rest == "" then Some(acc[key := v])
      else if rest[0] == ',' then ParseMembers(rest[1..], acc[key := v])
      else None
  }

  /** `JSON.parse` of a flat object of integer fields; None where the text is anything else. */
  function ParseObject(s: string): Option<map<string, int>> {
    if |s| >= 2 && s[0] == '{' && s[|s| - 1] == '}' then
      var body := s[1..|s| - 1];
      if body == "" then Some(map[]) else ParseMembers(body, map[])
    else None
  }

  /** A raw control character inside a key makes the object unreadable, as `JSON.parse`
      refuses it. */
  lemma ControlCharacterKeyRefused()
    ensures ParseObject("{\"a\U{1}\":1}").None?
  {
    var text := "{\"a\U{1}\":1}";
    var body := text[1..|text| - 1];
    var t := body[1..];
    assert |text| == 8 && text[2] == 'a' && text[3] == '\U{1}' && text[4] == '"';
    assert t == text[2..7];
    assert QuoteIndex(t[1..][1..]) == 0;
    assert QuoteIndex(t[1..]) == 1;
    assert QuoteIndex(t) == 2;
    assert !IsPlainKey(body[1..3]) by {
      assert body[1..3][1] == '\U{1}';
    }
    assert ParseKey(body).None?;
  }

  function MemberText(key: string, v: int): string {
    "\"" + key + "\":" + IntText(v)
  }

  function MembersText(fs: seq<(string, int)>): string
    decreases |fs|
  {
    if |fs| == 0 then ""
    else if |fs| == 1 then MemberText(fs[0].0, fs[0].1)
    else MemberText(fs[0].0, fs[0].1) + "," + MembersText(fs[1..])
  }

  /** `JSON.stringify` of an object whose fields are `fs`, in order. */
  function ObjectText(fs: seq<(string, int)>): string {
    "{" + MembersText(fs) + "}"
  }

  /** The object `fs` denotes: fields applied in order over `acc`, later keys winning. */
  function Fields(acc: map<string, int>, fs: seq<(string, int)>): map<string, int>
    decreases |fs|
  {
    if |fs| == 0 then acc else Fields(acc[fs[0].0 := fs[0].1], fs[1..])
  }

  predicate PlainKeys(fs: seq<(string, int)>) {
    forall i :: 0 <= i < |fs| ==> IsPlainKey(fs[i].0)
  }

  lemma {:induction false} QuoteIndexAfterPlainKey(key: string, rest: string)
    requires IsPlainKey(key)
    ensures QuoteIndex(key + "\"" + rest) == |key|
    decreases |key|
  {
    if |key| > 0 {
      assert (key + "\"" + rest)[1..] == key[1..] + "\"" + rest;
      QuoteIndexAfterPlainKey(key[1..], rest);
    } else {
      assert (key + "\"" + rest)[0] == '"';
    }
  }

  lemma {:induction false} NumberLengthOfPrefix(t: string, rest: string)
    requires forall i :: 0 <= i < |t| ==> IsNumberChar(t[i])
    requires rest == "" || !IsNumberChar(rest[0])
    ensures NumberLength(t + rest) == |t|
    decreases |t|
  {
    if |t| > 0 {
      assert (t + rest)[1..] == t[1..] + rest;
      NumberLengthOfPrefix(t[1..], rest);
    } else {
      assert t + rest == rest;
    }
  }

  lemma ParseKeyText(key: string, tail: string)
    requires IsPlainKey(key)
    ensures ParseKey("\"" + key + "\"" + tail) == Some((key, tail))
  {
    var s := "\"" + key + "\"" + tail;
    assert s[1..] == key + "\"" + tail;
    QuoteIndexAfterPlainKey(key, tail);
    assert s[1..|key| + 1] == key;
    assert s[|key| + 2..] == tail;
  }

  lemma ParseValueText(v: int, rest: string)
    requires rest == "" || rest[0] == ','
    ensures ParseValue(":" + IntText(v) + rest) == Some((v, rest))
  {
    var n := IntText(v);
    var s := ":" + n + rest;
    assert s[1..] == n + rest;
    NumberLengthOfPrefix(n, rest);
    assert (n + rest)[..|n|] == n;
    assert (n + rest)[|n|..] == rest;
    IntTextRoundTrip(v);
  }

  lemma ParseMemberText(key: string, v: int, rest: string)
    requires IsPlainKey(key)
    requires rest == "" || rest[0] == ','
    ensures ParseMember(MemberText(key, v) + rest) == Some((key, v, rest))
  {
    var tail := ":" + IntText(v) + rest;
    assert MemberText(key, v) + rest == "\"" + key + "\"" + tail;
    ParseKeyText(key, tail);
    ParseValueText(v, rest);
  }

  /** Parsing a member list that starts with a written member. */
  lemma ParseMembersOfMember(key: string, v: int, rest: string, acc: map<string, int>)
    requires IsPlainKey(key)
    requires rest == "" || rest[0] == ','
    ensures ParseMembers(MemberText(key, v) + rest, acc) ==
            if rest == "" then Some(acc[key := v]) else ParseMembers(rest[1..], acc[key := v])
  {
    ParseMemberText(key, v, rest);
  }

  lemma MembersTextCons(fs: seq<(string, int)>)
    requires |fs| > 0
    ensures MembersText(fs) == MemberText(fs[0].0, fs[0].1) + (if |fs| == 1 then "" else "," + MembersText(fs[1..]))
  {
  }

  lemma {:induction false} ParseMembersText(fs: seq<(string, int)>, acc: map<string, int>)
    requires |fs| > 0 && PlainKeys(fs)
    ensures ParseMembers(MembersText(fs), acc) == Some(Fields(acc, fs))
    decreases |fs|
  {
    var (key, v) := fs[0];
    MembersTextCons(fs);
    assert IsPlainKey(key);
    if |fs| == 1 {
      ParseMembersOfMember(key, v, "", acc);
      assert fs[1..] == [];
    } else {
      var rest := "," + MembersText(fs[1..]);
      ParseMembersOfMember(key, v, rest, acc);
      assert rest[1..] == MembersText(fs[1..]);
      ParseMembersText(fs[1..], acc[key := v]);
    }
  }

  /** JSON.parse(JSON.stringify(o)) gives back the object's fields, for plain keys. */
  lemma ObjectTextRoundTrip(fs: seq<(string, int)>)
    requires PlainKeys(fs)
    ensures ParseObject(ObjectText(fs)) == Some(Fields(map[], fs))
  {
    var s := ObjectText(fs);
    assert s[1..|s| - 1] == MembersText(fs);
    if |fs| > 0 {
      ParseMembersText(fs, map[]);
    }
  }
}

=== FILE: monitor.dfy ===
/** The ajax-error handler that watches for a lost connection. Each handler keeps its
    own error count: a 401/403 sends the user to log in again and is not counted; any
    other failure is counted, reads the update rate from local storage, schedules one
    decrement after three update periods, and raises a "connection lost" notification
    whenever the count is above the threshold. When the stored rate cannot be read the
    handler throws right after counting: nothing is scheduled, nothing notified, and no
    waiter released. Timers are explicit `TimerFired` events. */
module ConnectionMonitor {
  import opened Wrappers
  import opened Json
  import Preferences

  const ErrorThreshold: int := 2
  const LostMessage: string := "Connection lost. Retrying..."

  /** A handler's error count and the decrements scheduled but not yet run. */
  datatype Monitor = Monitor(errorCount: int, pendingDecrements: nat)

  /** A fresh handler, as each call of the handler factory creates. */
  const Fresh: Monitor := Monitor(0, 0)

  /** The page the console runs in: whether it was opened for a remote connection (the
      connection query parameter is present), its path and its full URL. */
  datatype Page = Page(hasConnectionParam: bool, pathname: string, href: string)

  /** What the handler sees of its surroundings at the time of a failure: the page, the
      login state, and what `loadUpdateRate()` gives at that moment — `Preferences.LoadUpdateRate`
      of local storage, None where it throws. */
  datatype Context = Context(page: Page, loginPath: string, loggedIn: bool, updateRate: Option<int>)

  /** The context of a failure seen while local storage holds `store`. */
  function ContextOf(page: Page, loginPath: string, loggedIn: bool, store: Preferences.Store): Context {
    Context(page, loginPath, loggedIn, Preferences.LoadUpdateRate(store))
  }

  predicate RateReadable(ctx: Context) {
    ctx.updateRate.Some?
  }

  /** The side effects of handling one failure. */
  datatype Effect =
    | StopPolling
    | RedirectToLogin(loginPath: string, returnTo: string)
    | Logout
    | ScheduleDecrement(delay: int)
    | Notify(kind: string, message: string, duration: int)
    | ResolveWaiter

  datatype Handled = Handled(monitor: Monitor, effects: seq<Effect>)

  predicate IsAuthFailure(status: int) {
    status == 401 || status == 403
  }

  /** The reaction to a 401/403: back to the login page when the page was opened for a
      remote connection and is not the login page, a logout when a user is logged in otherwise. */
  function AuthEffects(ctx: Context): (es: seq<Effect>)
    ensures ctx.page.hasConnectionParam && ctx.page.pathname != ctx.loginPath ==>
              es == [StopPolling, RedirectToLogin(ctx.loginPath, ctx.page.href)]
    ensures ctx.page.hasConnectionParam && ctx.page.pathname == ctx.loginPath ==> es == []
    ensures !ctx.page.hasConnectionParam ==> es == (if ctx.loggedIn then [Logout] else [])
  {
    if ctx.page.hasConnectionParam then
      if ctx.page.pathname != ctx.loginPath then [StopPolling, RedirectToLogin(ctx.loginPath, ctx.page.href)]
      else []
    else if ctx.loggedIn then [Logout]
    else []
  }

  /** One ajax failure with HTTP `status`; `hasResolver` says whether the handler was built
      with a waiter to release. */
  function OnAjaxError(m: Monitor, status: int, ctx: Context, hasResolver: bool): (h: Handled)
    ensures IsAuthFailure(status) ==> h.monitor == m
    ensures IsAuthFailure(status) ==> h.effects == AuthEffects(ctx) + (if hasResolver then [ResolveWaiter] else [])
    ensures !IsAuthFailure(status) ==> h.monitor.errorCount == m.errorCount + 1
    ensures !IsAuthFailure(status) && RateReadable(ctx) ==>
              && h.monitor.pendingDecrements == m.pendingDecrements + 1
              && ScheduleDecrement(ctx.updateRate.value * (ErrorThreshold + 1)) in h.effects
    ensures !IsAuthFailure(status) && !RateReadable(ctx) ==>
              h.monitor.pendingDecrements == m.pendingDecrements && h.effects == []
    ensures forall e :: e in h.effects && e.Notify? ==>
              !IsAuthFailure(status) && RateReadable(ctx) && m.errorCount + 1 > ErrorThreshold
    ensures !IsAuthFailure(status) && RateReadable(ctx) && m.errorCount + 1 > ErrorThreshold ==>
              Notify("danger", LostMessage, ctx.updateRate.value - 100) in h.effects
    ensures !IsAuthFailure(status) && RateReadable(ctx) ==>
              h.effects == [ScheduleDecrement(ctx.updateRate.value * (ErrorThreshold + 1))]
                           + (if m.errorCount + 1 > ErrorThreshold
                              then [Notify("danger", LostMessage, ctx.updateRate.value - 100)] else [])
                           + (if hasResolver then [ResolveWaiter] else [])
    ensures ResolveWaiter in h.effects <==> hasResolver && (IsAuthFailure(status) || RateReadable(ctx))
    ensures ResolveWaiter in h.effects ==> h.effects[|h.effects| - 1] == ResolveWaiter
  {
    var resolve := if hasResolver then [ResolveWaiter] else [];
    if IsAuthFailure(status) then
      Handled(m, AuthEffects(ctx) + resolve)
    else
      var count := m.errorCount + 1;
      match ctx.updateRate
      case None => Handled(Monitor(count, m.pendingDecrements), [])
      case Some(rate) =>
        var notify := if count > ErrorThreshold
                      then [Notify("danger", LostMessage, rate - 100)] else [];
        var effects := [ScheduleDecrement(rate * (ErrorThreshold + 1))] + notify + resolve;
        assert count > ErrorThreshold ==> effects[1].Notify?;
        assert count <= ErrorThreshold ==> forall e :: e in effects ==> !e.Notify?;
        Handled(Monitor(count, m.pendingDecrements + 1), effects)
  }

  /** A scheduled decrement runs; with none scheduled there is no timer to fire. */
  function OnTimer(m: Monitor): (m': Monitor)
    ensures m.pendingDecrements > 0 ==> m'.errorCount == m.errorCount - 1 && m'.pendingDecrements == m.pendingDecrements - 1
    ensures m.pendingDecrements == 0 ==> m' == m
  {
    if m.pendingDecrements > 0 then Monitor(m.errorCount - 1, m.pendingDecrements - 1) else m
  }

  /** Every counted failure has exactly one decrement outstanding until its timer fires. */
  predicate Balanced(m: Monitor) {
    m.errorCount == m.pendingDecrements
  }

  /** Every outstanding decrement belongs to a counted failure, so the count cannot go
      negative; failures whose handler threw stay counted for good. */
  predicate Covered(m: Monitor) {
    m.pendingDecrements <= m.errorCount
  }

  datatype Event = AjaxFailure(status: int) | TimerFired

  /** One event for a handler built without a waiter. */
  function Handle(m: Monitor, e: Event, ctx: Context): (h: Handled)
    ensures Covered(m) ==> Covered(h.monitor) && h.monitor.errorCount >= 0
    ensures Balanced(m) && RateReadable(ctx) ==> Balanced(h.monitor)
    ensures Balanced(m) && !RateReadable(ctx) && e.AjaxFailure? && !IsAuthFailure(e.status) ==>
              h.monitor.errorCount == h.monitor.pendingDecrements + 1
  {
    match e
    case AjaxFailure(status) => OnAjaxError(m, status, ctx, false)
    case TimerFired => Handled(OnTimer(m), [])
  }

  /** The number of notifications among `es`. */
  function Notifications(es: seq<Effect>): nat
    decreases |es|
  {
    if |es| == 0 then 0 else (if es[0].Notify? then 1 else 0) + Notifications(es[1..])
  }

  lemma {:induction false} NotificationsAppend(a: seq<Effect>, b: seq<Effect>)
    ensures Notifications(a + b) == Notifications(a) + Notifications(b)
    decreases |a|
  {
    if |a| > 0 {
      assert (a + b)[1..] == a[1..] + b;
      NotificationsAppend(a[1..], b);
    } else {
      assert a + b == b;
    }
  }

  /** Handles `events` in order, collecting the effects. */
  function Run(m: Monitor, events: seq<Event>, ctx: Context): (h: Handled)
    ensures Covered(m) ==> Covered(h.monitor) && h.monitor.errorCount >= 0
    ensures Balanced(m) && RateReadable(ctx) ==> Balanced(h.monitor)
    decreases |events|
  {
    if |events| == 0 then Handled(m, [])
    else
      var first := Handle(m, events[0], ctx);
      var rest := Run(first.monitor, events[1..], ctx);
      Handled(rest.monitor, first.effects + rest.effects)
  }

  /** k failures that are not 401/403, with no timer firing in between. */
  function Failures(k: nat, status: int): (es: seq<Event>)
    ensures |es| == k
    decreases k
  {
    if k == 0 then [] else [AjaxFailure(status)] + Failures(k - 1, status)
  }

  /** One non-auth failure from count c with d decrements pending: the count goes up by one,
      a decrement is scheduled and the threshold checked only when the rate reads. */
  lemma FailureStep(c: nat, d: nat, status: int, ctx: Context)
    requires !IsAuthFailure(status)
    ensures Handle(Monitor(c, d), AjaxFailure(status), ctx).monitor
         == Monitor(c + 1, if RateReadable(ctx) then d + 1 else d)
    ensures Notifications(Handle(Monitor(c, d), AjaxFailure(status), ctx).effects) ==
            if RateReadable(ctx) && c + 1 > ErrorThreshold then 1 else 0
  {
    if RateReadable(ctx) {
      var rate := ctx.updateRate.value;
      var schedule := [ScheduleDecrement(rate * (ErrorThreshold + 1))];
      var notify := if c + 1 > ErrorThreshold then [Notify("danger", LostMessage, rate - 100)] else [];
      assert Handle(Monitor(c, d), AjaxFailure(status), ctx).effects == schedule + notify + [];
      assert schedule + notify + [] == schedule + notify;
      NotificationsAppend(schedule, notify);
    }
  }

  /** Running k > 0 failures is handling the first and running the rest. */
  lemma RunFailure(m: Monitor, k: nat, status: int, ctx: Context)
    requires k > 0
    ensures var first := Handle(m, AjaxFailure(status), ctx);
            var rest := Run(first.monitor, Failures(k - 1, status), ctx);
            Run(m, Failures(k, status), ctx) == Handled(rest.monitor, first.effects + rest.effects)
  {
    var events := Failures(k, status);
    assert events[0] == AjaxFailure(status) && events[1..] == Failures(k - 1, status);
  }

  /** k non-auth failures raise the count by k; they schedule k decrements when the rate
      reads and none when it does not. */
  lemma {:induction false} FailuresCount(c: nat, d: nat, k: nat, status: int, ctx: Context)
    requires !IsAuthFailure(status)
    ensures Run(Monitor(c, d), Failures(k, status), ctx).monitor
         == Monitor(c + k, if RateReadable(ctx) then d + k else d)
    decreases k
  {
    if k > 0 {
      FailureStep(c, d, status, ctx);
      FailuresCount(c + 1, if RateReadable(ctx) then d + 1 else d, k - 1, status, ctx);
      RunFailure(Monitor(c, d), k, status, ctx);
    }
  }

  /** The notifications of k failures from count c: one for each failure that takes the
      count above the threshold. */
  function ExpectedNotifications(c: nat, k: nat): nat {
    if c >= ErrorThreshold then k
    else if c + k <= ErrorThreshold then 0
    else c + k - ErrorThreshold
  }

  /** From a count c, k further non-auth failures before any decrement notify once for each
      failure that takes the count above the threshold — and never when the rate cannot be
      read. */
  lemma NotificationCount(c: nat, d: nat, k: nat, status: int, ctx: Context)
    requires !IsAuthFailure(status)
    ensures Notifications(Run(Monitor(c, d), Failures(k, status), ctx).effects)
         == if RateReadable(ctx) then ExpectedNotifications(c, k) else 0
  {
    if RateReadable(ctx) {
      ReadableNotifications(c, d, k, status, ctx);
    } else {
      UnreadableNotifications(c, d, k, status, ctx);
    }
  }

  lemma {:induction false} ReadableNotifications(c: nat, d: nat, k: nat, status: int, ctx: Context)
    requires !IsAuthFailure(status) && RateReadable(ctx)
    ensures Notifications(Run(Monitor(c, d), Failures(k, status), ctx).effects) == ExpectedNotifications(c, k)
    decreases k
  {
    if k > 0 {
      ReadableNotifications(c + 1, d + 1, k - 1, status, ctx);
      ReadableStep(c, d, k, status, ctx);
    }
  }

  /** The induction step of `ReadableNotifications`. */
  lemma ReadableStep(c: nat, d: nat, k: nat, status: int, ctx: Context)
    requires !IsAuthFailure(status) && RateReadable(ctx) && k > 0
    requires Notifications(Run(Monitor(c + 1, d + 1), Failures(k - 1, status), ctx).effects)
          == ExpectedNotifications(c + 1, k - 1)
    ensures Notifications(Run(Monitor(c, d), Failures(k, status), ctx).effects) == ExpectedNotifications(c, k)
  {
    NotificationsSplit(c, d, k, status, ctx);
    NextExpected(c, k);
  }

  lemma {:induction false} UnreadableNotifications(c: nat, d: nat, k: nat, status: int, ctx: Context)
    requires !IsAuthFailure(status) && !RateReadable(ctx)
    ensures Notifications(Run(Monitor(c, d), Failures(k, status), ctx).effects) == 0
    decreases k
  {
    if k > 0 {
      NotificationsSplit(c, d, k, status, ctx);
      UnreadableNotifications(c + 1, d, k - 1, status, ctx);
    }
  }

  /** The notifications of k > 0 failures: those of the first, then those of the rest. */
  lemma NotificationsSplit(c: nat, d: nat, k: nat, status: int, ctx: Context)
    requires !IsAuthFailure(status) && k > 0
    ensures Notifications(Run(Monitor(c, d), Failures(k, status), ctx).effects)
         == (if RateReadable(ctx) && c + 1 > ErrorThreshold then 1 else 0)
            + Notifications(Run(Monitor(c + 1, if RateReadable(ctx) then d + 1 else d), Failures(k - 1, status), ctx).effects)
  {
    var first := Handle(Monitor(c, d), AjaxFailure(status), ctx);
    FailureStep(c, d, status, ctx);
    var rest := Run(first.monitor, Failures(k - 1, status), ctx);
    RunFailure(Monitor(c, d), k, status, ctx);
    NotificationsAppend(first.effects, rest.effects);
  }

  lemma NextExpected(c: nat, k: nat)
    requires k > 0
    ensures ExpectedNotifications(c, k) == (if c + 1 > ErrorThreshold then 1 else 0) + ExpectedNotifications(c + 1, k - 1)
  {
  }

  /** Three failures in one window notify once; a fourth notifies again (the notification is
      raised on every failure above the threshold, not once per crossing). With an unreadable
      rate none of them notifies. */
  lemma ThirdAndFourthFailureNotify(status: int, ctx: Context)
    requires !IsAuthFailure(status)
    ensures Notifications(Run(Fresh, Failures(2, status), ctx).effects) == 0
    ensures Notifications(Run(Fresh, Failures(3, status), ctx).effects) == if RateReadable(ctx) then 1 else 0
    ensures Notifications(Run(Fresh, Failures(4, status), ctx).effects) == if RateReadable(ctx) then 2 else 0
  {
    NotificationCount(0, 0, 2, status, ctx);
    NotificationCount(0, 0, 3, status, ctx);
    NotificationCount(0, 0, 4, status, ctx);
  }

  /** With an unreadable rate the count only grows: k failures from a balanced count leave it
      k above the decrements that will ever run, so it never returns to 0. */
  lemma UnreadableRateSticks(c: nat, k: nat, status: int, ctx: Context)
    requires !IsAuthFailure(status) && !RateReadable(ctx)
    ensures var m := Run(Monitor(c, c), Failures(k, status), ctx).monitor;
            m.errorCount == m.pendingDecrements + k
  {
    FailuresCount(c, c, k, status, ctx);
  }

  /** A failure after the update rate was saved schedules its decrement after three of those
      periods; with nothing stored, after three default periods of 5000 ms. */
  lemma StoredRateSetsWindow(page: Page, loginPath: string, loggedIn: bool, store: Preferences.Store,
                             rate: int, status: int)
    requires !IsAuthFailure(status)
    requires -PlainNumberBound < rate < PlainNumberBound
    ensures var ctx := ContextOf(page, loginPath, loggedIn, Preferences.SaveUpdateRate(store, rate));
            ScheduleDecrement(rate * 3) in OnAjaxError(Fresh, status, ctx, false).effects
    ensures Preferences.KeyUpdateRate !in store ==>
              var ctx := ContextOf(page, loginPath, loggedIn, store);
              ScheduleDecrement(15000) in OnAjaxError(Fresh, status, ctx, false).effects
  {
    Preferences.UpdateRateRoundTrip(store, rate);
  }

  /** A failure seen by a fresh handler — the one list-method negotiation builds for itself —
      never notifies, and releases its waiter unless reading the rate throws. */
  lemma FreshHandlerNeverNotifies(status: int, ctx: Context)
    ensures forall e :: e in OnAjaxError(Fresh, status, ctx, true).effects ==> !e.Notify?
    ensures ResolveWaiter in OnAjaxError(Fresh, status, ctx, true).effects <==>
              IsAuthFailure(status) || RateReadable(ctx)
  {
  }
}

=== FILE: preferences.dfy ===
/** The service's preferences in browser local storage: the polling update rate,
    the auto-refresh flag and the listing limits. Storage is a map from key to the
    raw text `localStorage` holds; a missing key and an empty text are both falsy
    and select the default. */
module Preferences {
  import opened Wrappers
  import opened Json

  const DefaultMaxDepth: int := 7
  const DefaultMaxCollectionSize: int := 50000
  const DefaultUpdateRate: int := 5000
  const DefaultAutoRefresh: bool := false

  const KeyJolokiaOptions: string := "connect.jolokia.options"
  const KeyUpdateRate: string := "connect.jolokia.updateRate"
  const KeyAutoRefresh: string := "connect.jolokia.autoRefresh"

  /** The browser's local storage: key to stored text. */
  type Store = map<string, string>

  /** The listing limits the Jolokia client is configured with. */
  datatype StoredOptions = StoredOptions(maxDepth: int, maxCollectionSize: int)

  /** `localStorage.getItem(key)` when it is truthy, i.e. present and not the empty text. */
  function Item(store: Store, key: string): Option<string> {
    if key in store && store[key] != "" then Some(store[key]) else None
  }

  /** JavaScript's `field || d` for a numeric field that may be undefined: 0 is falsy. */
  function OrDefault(field: Option<int>, d: int): int {
    if field.Some? && field.value != 0 then field.value else d
  }

  /** `localStorage.setItem(key, text)`: the key now holds `text`, every other key is unchanged. */
  function SetItem(store: Store, key: string, text: string): (r: Store)
    ensures key in r && r[key] == text
    ensures r.Keys == store.Keys + {key}
    ensures forall k :: k in store && k != key ==> r[k] == store[k]
  {
    store[key := text]
  }

  /** The stored update rate, 5000 when none is stored. None stands for the NaN or the
      exception the source produces on text that is not an integer literal. */
  function LoadUpdateRate(store: Store): (r: Option<int>)
    ensures Item(store, KeyUpdateRate).None? ==> r == Some(DefaultUpdateRate)
    ensures r.Some? && Item(store, KeyUpdateRate).Some? && store[KeyUpdateRate] != "-0" ==>
              IntText(r.value) == store[KeyUpdateRate]
  {
    match Item(store, KeyUpdateRate)
    case None => Some(DefaultUpdateRate)
    case Some(text) =>
      var r := ParseInt(text);
      assert r.Some? && text != "-0" ==> IntText(r.value) == text by {
        if r.Some? && text != "-0" {
          IntTextCanonical(text, r.value);
        }
      }
      r
  }

  /** `saveUpdateRate`: the rate's JSON text under its key; no other item changes. */
  function SaveUpdateRate(store: Store, value: int): (r: Store)
    ensures Item(r, KeyUpdateRate).Some?
    ensures forall k :: k != KeyUpdateRate ==> Item(r, k) == Item(store, k)
  {
    SetItem(store, KeyUpdateRate, IntText(value))
  }

  /** The stored auto-refresh flag, false when none is stored. The stored text is given to
      `parseBoolean` (a helper whose definition is not part of this model) as it is. */
  function LoadAutoRefresh(store: Store, parseBoolean: string -> bool): (r: bool)
    ensures Item(store, KeyAutoRefresh).None? ==> r == DefaultAutoRefresh
    ensures Item(store, KeyAutoRefresh).Some? ==> r == parseBoolean(store[KeyAutoRefresh])
  {
    match Item(store, KeyAutoRefresh)
    case None => DefaultAutoRefresh
    case Some(text) => parseBoolean(text)
  }

  /** `JSON.stringify` of a boolean. */
  function BoolText(b: bool): string {
    if b then "true" else "false"
  }

  /** `saveAutoRefresh`: "true" or "false" under its key; no other item changes. */
  function SaveAutoRefresh(store: Store, value: bool): (r: Store)
    ensures Item(r, KeyAutoRefresh) == Some(if value then "true" else "false")
    ensures forall k :: k != KeyAutoRefresh ==> Item(r, k) == Item(store, k)
  {
    SetItem(store, KeyAutoRefresh, BoolText(value))
  }

  /** The stored listing limits, a field that is missing or 0 replaced by its default, each
      field on its own. None stands for text outside the JSON this model reads: text that is
      not a flat object of integer fields (see `ParseObject`). */
  function LoadJolokiaStoredOptions(store: Store): (r: Option<StoredOptions>)
    ensures Item(store, KeyJolokiaOptions).None? ==>
              r == Some(StoredOptions(DefaultMaxDepth, DefaultMaxCollectionSize))
    ensures Item(store, KeyJolokiaOptions).Some? ==>
              (r.Some? <==> ParseObject(store[KeyJolokiaOptions]).Some?)
    ensures Item(store, KeyJolokiaOptions).Some? && ParseObject(store[KeyJolokiaOptions]).Some? ==>
              var f := ParseObject(store[KeyJolokiaOptions]).value;
              && r.value.maxDepth ==
                 (if "maxDepth" in f && f["maxDepth"] != 0 then f["maxDepth"] else DefaultMaxDepth)
              && r.value.maxCollectionSize ==
                 (if "maxCollectionSize" in f && f["maxCollectionSize"] != 0 then f["maxCollectionSize"]
                  else DefaultMaxCollectionSize)
    ensures r.Some? ==> r.value.maxDepth != 0 && r.value.maxCollectionSize != 0
  {
    match Item(store, KeyJolokiaOptions)
    case None => Some(StoredOptions(DefaultMaxDepth, DefaultMaxCollectionSize))
    case Some(text) =>
      match ParseObject(text)
      case None => None
      case Some(fields) =>
        Some(StoredOptions(
          OrDefault(if "maxDepth" in fields then Some(fields["maxDepth"]) else None, DefaultMaxDepth),
          OrDefault(if "maxCollectionSize" in fields then Some(fields["maxCollectionSize"]) else None,
                    DefaultMaxCollectionSize)))
  }

  /** The text `JSON.stringify(options)` writes. */
  function OptionsText(o: StoredOptions): string {
    ObjectText([("maxDepth", o.maxDepth), ("maxCollectionSize", o.maxCollectionSize)])
  }

  /** `saveJolokiaStoredOptions`: the limits as a JSON object under their key, which parses
      back to exactly the two fields; no other item changes. */
  function SaveJolokiaStoredOptions(store: Store, o: StoredOptions): (r: Store)
    ensures Item(r, KeyJolokiaOptions).Some?
    ensures ParseObject(r[KeyJolokiaOptions]) ==
            Some(map["maxDepth" := o.maxDepth, "maxCollectionSize" := o.maxCollectionSize])
    ensures forall k :: k != KeyJolokiaOptions ==> Item(r, k) == Item(store, k)
  {
    OptionsTextFields(o);
    SetItem(store, KeyJolokiaOptions, OptionsText(o))
  }

  /** Every saved update rate that `JSON.stringify` writes in plain digits, 0 and negative
      ones included, reads back unchanged. */
  lemma UpdateRateRoundTrip(store: Store, value: int)
    requires -PlainNumberBound < value < PlainNumberBound
    ensures LoadUpdateRate(SaveUpdateRate(store, value)) == Some(value)
  {
    IntTextRoundTrip(value);
  }

  /** A saved flag reads back unchanged, given that `parseBoolean` reads "true" and "false". */
  lemma AutoRefreshRoundTrip(store: Store, value: bool, parseBoolean: string -> bool)
    requires parseBoolean("true") && !parseBoolean("false")
    ensures LoadAutoRefresh(SaveAutoRefresh(store, value), parseBoolean) == value
  {
  }

  /** The fields JSON.parse finds in the saved limits text. */
  lemma OptionsTextFields(o: StoredOptions)
    ensures ParseObject(OptionsText(o)) ==
            Some(map["maxDepth" := o.maxDepth, "maxCollectionSize" := o.maxCollectionSize])
  {
    var fs := [("maxDepth", o.maxDepth), ("maxCollectionSize", o.maxCollectionSize)];
    assert PlainKeys(fs) by {
      assert IsPlainKey("maxDepth");
      assert IsPlainKey("maxCollectionSize");
    }
    ObjectTextRoundTrip(fs);
    var m1 := map["maxDepth" := o.maxDepth];
    assert fs[1..] == [("maxCollectionSize", o.maxCollectionSize)];
    assert fs[1..][1..] == [];
    assert Fields(map[], fs) == Fields(m1, fs[1..]);
    assert Fields(m1, fs[1..]) == Fields(m1["maxCollectionSize" := o.maxCollectionSize], []);
  }

  /** Saved limits read back unchanged, except that a 0 field reads back as its default. */
  lemma StoredOptionsRoundTrip(store: Store, o: StoredOptions)
    ensures LoadJolokiaStoredOptions(SaveJolokiaStoredOptions(store, o)) ==
            Some(StoredOptions(
              if o.maxDepth != 0 then o.maxDepth else DefaultMaxDepth,
              if o.maxCollectionSize != 0 then o.maxCollectionSize else DefaultMaxCollectionSize))
  {
    var text := OptionsText(o);
    OptionsTextFields(o);
    assert text[0] == '{';
    assert Item(SaveJolokiaStoredOptions(store, o), KeyJolokiaOptions) == Some(text);
    assert "maxDepth" != "maxCollectionSize" by { assert |"maxDepth"| != |"maxCollectionSize"|; }
  }

  /** A stored object holding only `maxDepth` loads with that depth (or its default, for 0)
      and the default collection size. */
  lemma MissingFieldTakesDefault(store: Store, depth: int)
    ensures LoadJolokiaStoredOptions(SetItem(store, KeyJolokiaOptions, ObjectText([("maxDepth", depth)])))
         == Some(StoredOptions(if depth != 0 then depth else DefaultMaxDepth, DefaultMaxCollectionSize))
  {
    var fs := [("maxDepth", depth)];
    var text := ObjectText(fs);
    assert PlainKeys(fs) by {
      assert IsPlainKey("maxDepth");
    }
    ObjectTextRoundTrip(fs);
    assert fs[1..] == [];
    assert Fields(map[], fs) == Fields(map["maxDepth" := depth], []);
    assert text[0] == '{';
    assert "maxCollectionSize" != "maxDepth" by { assert |"maxDepth"| != |"maxCollectionSize"|; }
  }

  /** The three keys differ after their common prefix "connect.jolokia.". */
  lemma KeysDistinct()
    ensures KeyUpdateRate != KeyAutoRefresh && KeyUpdateRate != KeyJolokiaOptions
    ensures KeyAutoRefresh != KeyJolokiaOptions
  {
    assert KeyUpdateRate[16] == 'u';
    assert KeyAutoRefresh[16] == 'a';
    assert KeyJolokiaOptions[16] == 'o';
  }

  /** Saving the listing limits leaves the other two preferences as they read before. */
  lemma SavingOptionsKeepsOthers(store: Store, o: StoredOptions, parseBoolean: string -> bool)
    ensures LoadUpdateRate(SaveJolokiaStoredOptions(store, o)) == LoadUpdateRate(store)
    ensures LoadAutoRefresh(SaveJolokiaStoredOptions(store, o), parseBoolean) == LoadAutoRefresh(store, parseBoolean)
  {
    KeysDistinct();
    assert Item(SaveJolokiaStoredOptions(store, o), KeyUpdateRate) == Item(store, KeyUpdateRate);
    assert Item(SaveJolokiaStoredOptions(store, o), KeyAutoRefresh) == Item(store, KeyAutoRefresh);
  }

  /** Saving the update rate leaves the other two preferences as they read before. */
  lemma SavingUpdateRateKeepsOthers(store: Store, rate: int, parseBoolean: string -> bool)
    ensures LoadAutoRefresh(SaveUpdateRate(store, rate), parseBoolean) == LoadAutoRefresh(store, parseBoolean)
    ensures LoadJolokiaStoredOptions(SaveUpdateRate(store, rate)) == LoadJolokiaStoredOptions(store)
  {
    KeysDistinct();
    assert Item(SaveUpdateRate(store, rate), KeyAutoRefresh) == Item(store, KeyAutoRefresh);
    assert Item(SaveUpdateRate(store, rate), KeyJolokiaOptions) == Item(store, KeyJolokiaOptions);
  }

  /** Saving the auto-refresh flag leaves the other two preferences as they read before. */
  lemma SavingAutoRefreshKeepsOthers(store: Store, flag: bool)
    ensures LoadUpdateRate(SaveAutoRefresh(store, flag)) == LoadUpdateRate(store)
    ensures LoadJolokiaStoredOptions(SaveAutoRefresh(store, flag)) == LoadJolokiaStoredOptions(store)
  {
    KeysDistinct();
    assert Item(SaveAutoRefresh(store, flag), KeyUpdateRate) == Item(store, KeyUpdateRate);
    assert Item(SaveAutoRefresh(store, flag), KeyJolokiaOptions) == Item(store, KeyJolokiaOptions);
  }
}

=== FILE: service.dfy ===
/** The Jolokia service itself: the cached URL and client, the list-method
    configuration, and the operations that build, reuse and reset them. The service is
    an explicit value; each operation returns the service as it leaves it together with
    what it resolved. The promises the source caches are modelled by what they settle
    with: a Failure for a rejected one. */
module JolokiaService {
  import opened Wrappers
  import opened Json
  import opened Facade
  import Discovery
  import Auth
  import Preferences
  import ConnectionMonitor

  /** The list method and the MBean that provides the optimised list operations. */
  datatype Config = Config(listMethod: ListMethod, mbean: string)

  const InitialConfig: Config := Config(Default, OptimisedListMBean)

  const OptionsUnreadable: string := "stored Jolokia options are not readable"

  const UpdateRateUnreadable: string := "stored update rate is not readable"

  /** The options a live client is built with (the fixed defaults — POST, JSON, no canonical
      naming, ignore errors — are left implicit). */
  datatype ClientOptions = ClientOptions(url: string, maxDepth: int, maxCollectionSize: int)

  /** The client: the stub used when no agent was found, or a live client with its
      connection-lost handler. */
  datatype Client = Dummy | Live(options: ClientOptions, monitor: ConnectionMonitor.Monitor)

  /** Everything outside the service it consults: the user session, the current remote
      connection, cookies, local storage, and what the network answers — the probe of each
      candidate path and the reply to the list-optimisation query. */
  datatype Environment = Environment(
    loggedIn: bool,
    userToken: Option<string>,
    connectionName: Option<string>,
    connectionUrl: Option<string>,
    connection: Option<Auth.Connection>,
    xsrfCookie: Option<string>,
    store: Preferences.Store,
    probe: string -> Discovery.ProbeReply,
    registryList: Reply<Json>)

  /** The service state: the cached URL, the cached client, the list configuration, and
      jQuery's global `beforeSend` (which lives outside the service and survives a reset). */
  datatype Service = Service(
    url: Option<Result<Option<string>, string>>,
    client: Option<Result<Client, string>>,
    config: Config,
    beforeSend: Option<Auth.Decorator>)

  /** The service as the module creates it. */
  const Initial: Service := Service(None, None, InitialConfig, None)

  /** The service after an operation, and what the operation resolved with. */
  datatype Step<T> = Step(service: Service, value: T)

  /** `reset`: forgets the URL and the client and restores the initial configuration. */
  function Reset(s: Service): (r: Service)
    ensures r.url.None? && r.client.None?
    ensures r.config == Config(Default, "hawtio:type=security,name=RBACRegistry")
    ensures r.beforeSend == s.beforeSend
  {
    Service(None, None, InitialConfig, s.beforeSend)
  }

  function Resolve(env: Environment): Discovery.Resolution {
    Discovery.InitJolokiaUrl(env.loggedIn, env.connectionName, env.connectionUrl, env.probe)
  }

  /** `getJolokiaUrl`: the cached outcome if there is one, otherwise the outcome of discovery,
      cached (a rejection is cached too). */
  function GetJolokiaUrl(s: Service, env: Environment): (r: Step<Result<Option<string>, string>>)
    ensures s.url.Some? ==> r == Step(s, s.url.value)
    ensures s.url.None? ==> r.value == Resolve(env).url
    ensures r.service == s.(url := Some(r.value))
  {
    if s.url.Some? then Step(s, s.url.value)
    else
      var u := Resolve(env).url;
      Step(s.(url := Some(u)), u)
  }

  /** `value?.op` is an object. */
  predicate HasOperations(value: Json) {
    var op := Member(value, "op");
    op.Some? && IsObject(op.value)
  }

  /** `checkListOptimisation`: a success whose value has an object-valued `op` selects the
      optimised method and any other success the undetermined one; an error response or an
      ajax failure resolves the check and leaves the method as it was. */
  function CheckListOptimisation(current: ListMethod, reply: Reply<Json>): (m: ListMethod)
    ensures reply.Ok? ==> (m == Optimised <==> HasOperations(reply.value))
    ensures reply.Ok? && !HasOperations(reply.value) ==> m == Undetermined
    ensures !reply.Ok? ==> m == current
  {
    match reply
    case Ok(value) => if HasOperations(value) then Optimised else Undetermined
    case _ => current
  }

  /** `createJolokia`: no URL gives the stub; otherwise the auth decorator is installed unless
      one already is, the client is built from the stored options and the URL, and the list
      method is negotiated. */
  function CreateJolokia(s: Service, env: Environment): (r: Step<Result<Client, string>>)
    ensures var u := GetJolokiaUrl(s, env);
            && r.service.url == u.service.url
            && r.service.client == s.client
            && (u.value.Failure? ==> r == Step(u.service, Failure(u.value.error)))
            && (u.value.Success? && !Truthy(u.value.value) ==> r == Step(u.service, Success(Dummy)))
    ensures var u := GetJolokiaUrl(s, env);
            u.value.Success? && Truthy(u.value.value) ==>
              && r.service.beforeSend == (if s.beforeSend.Some? then s.beforeSend
                                          else Some(Auth.BeforeSend(env.loggedIn, env.userToken, env.connection, env.xsrfCookie)))
              && (Preferences.LoadJolokiaStoredOptions(env.store).None? ==>
                    r.value == Failure(OptionsUnreadable) && r.service.config == s.config)
              && (Preferences.LoadJolokiaStoredOptions(env.store).Some? ==>
                    var o := Preferences.LoadJolokiaStoredOptions(env.store).value;
                    && r.value == Success(Live(ClientOptions(u.value.value.value, o.maxDepth, o.maxCollectionSize),
                                               ConnectionMonitor.Fresh))
                    && r.service.config == s.config.(listMethod := CheckListOptimisation(s.config.listMethod, env.registryList)))
    ensures s.beforeSend.Some? ==> r.service.beforeSend == s.beforeSend
  {
    var u := GetJolokiaUrl(s, env);
    match u.value
    case Failure(e) => Step(u.service, Failure(e))
    case Success(url) =>
      if !Truthy(url) then Step(u.service, Success(Dummy))
      else
        var s2 := if u.service.beforeSend.Some? then u.service
                  else u.service.(beforeSend := Some(Auth.BeforeSend(env.loggedIn, env.userToken,
                                                                      env.connection, env.xsrfCookie)));
        match Preferences.LoadJolokiaStoredOptions(env.store)
        case None => Step(s2, Failure(OptionsUnreadable))
        case Some(o) =>
          var client := Live(ClientOptions(url.value, o.maxDepth, o.maxCollectionSize), ConnectionMonitor.Fresh);
          var negotiated := CheckListOptimisation(s2.config.listMethod, env.registryList);
          Step(s2.(config := s2.config.(listMethod := negotiated)), Success(client))
  }

  /** Whether a new client is handed to the start hook `getJolokia` passes to `createJolokia`:
      only a live client is; the stub and a failure return before the hook runs. */
  predicate Started(c: Result<Client, string>) {
    c.Success? && c.value.Live?
  }

  /** `getJolokia`: the cached client outcome if there is one, otherwise a new client, cached.
      Before a live client is handed out, the start hook reads the update rate from local
      storage to start polling; where that read throws, `createJolokia` rejects after the list
      method was negotiated, and the rejection is what gets cached. */
  function GetJolokia(s: Service, env: Environment): (r: Step<Result<Client, string>>)
    ensures s.client.Some? ==> r == Step(s, s.client.value)
    ensures r.service.client == Some(r.value)
    ensures s.client.None? ==> r.service.url.Some?
    ensures s.client.None? ==> r.service == CreateJolokia(s, env).service.(client := Some(r.value))
    ensures s.client.None? && Started(CreateJolokia(s, env).value) && Preferences.LoadUpdateRate(env.store).None? ==>
              r.value == Failure(UpdateRateUnreadable)
    ensures s.client.None? && (!Started(CreateJolokia(s, env).value) || Preferences.LoadUpdateRate(env.store).Some?) ==>
              r.value == CreateJolokia(s, env).value
  {
    if s.client.Some? then Step(s, s.client.value)
    else
      var c := CreateJolokia(s, env);
      var v := if Started(c.value) && Preferences.LoadUpdateRate(env.store).None? then Failure(UpdateRateUnreadable)
               else c.value;
      Step(c.service.(client := Some(v)), v)
  }

  /** `getListMethod`: the method once the client exists. */
  function GetListMethod(s: Service, env: Environment): (r: Step<Result<ListMethod, string>>)
    ensures r.service == GetJolokia(s, env).service
    ensures r.value.Success? <==> GetJolokia(s, env).value.Success?
    ensures r.value.Success? ==> r.value.value == r.service.config.listMethod
  {
    var c := GetJolokia(s, env);
    match c.value
    case Failure(e) => Step(c.service, Failure(e))
    case Success(_) => Step(c.service, Success(c.service.config.listMethod))
  }

  /** `list`/`sublist`: the call issued on the client under the negotiated method (none when
      the client could not be built) and how the promise settles given the transport's reply. */
  function List(s: Service, env: Environment, path: Option<string>, maxDepth: Option<int>, reply: Reply<Json>)
    : (r: Step<(Option<ListCall>, Outcome<Json>)>)
    ensures r.service == GetJolokia(s, env).service
    ensures GetJolokia(s, env).value.Failure? ==>
              r.value == (None, Rejected(Message(GetJolokia(s, env).value.error)))
    ensures GetJolokia(s, env).value.Success? ==>
              && r.value.0 == Some(ListCallFor(r.service.config.listMethod, r.service.config.mbean, path, maxDepth))
              && r.value.1 == ListOutcome(reply)
    ensures !r.value.1.Pending?
  {
    var c := GetJolokia(s, env);
    match c.value
    case Failure(e) => Step(c.service, (None, Rejected(Message(e))))
    case Success(_) =>
      Step(c.service, (Some(ListCallFor(c.service.config.listMethod, c.service.config.mbean, path, maxDepth)),
                       ListOutcome(reply)))
  }

  predicate StartsWith(s: string, prefix: string) {
    |prefix| <= |s| && s[..|prefix|] == prefix
  }

  /** A URL matching `^https?://`. */
  predicate IsAbsolute(url: string) {
    StartsWith(url, "http://") || StartsWith(url, "https://")
  }

  /** The full URL of `getFullJolokiaUrl` (a null URL is read as ""): an absolute URL as it is,
      a root-relative one after the page origin, any other after origin, base path and "/". */
  function FullUrl(url: Option<string>, origin: string, basePath: Option<string>): (r: string)
    ensures var u := url.GetOr("");
            && |u| <= |r| && r[|r| - |u|..] == u
            && (IsAbsolute(u) ==> r == u)
            && (!IsAbsolute(u) ==> StartsWith(r, origin))
            && (IsAbsolute(origin) ==> IsAbsolute(r))
            && (!IsAbsolute(u) && |u| > 0 && u[0] == '/' ==> r == origin + u)
            && (!IsAbsolute(u) && !(|u| > 0 && u[0] == '/') ==> r == origin + basePath.GetOr("") + "/" + u)
  {
    var u := url.GetOr("");
    if IsAbsolute(u) then u
    else if |u| > 0 && u[0] == '/' then
      assert (origin + u)[..|origin|] == origin;
      PrefixKeepsAbsolute(origin, u);
      origin + u
    else
      var r := origin + basePath.GetOr("") + "/" + u;
      assert r == origin + (basePath.GetOr("") + "/" + u);
      assert r[..|origin|] == origin;
      PrefixKeepsAbsolute(origin, basePath.GetOr("") + "/" + u);
      r
  }

  lemma PrefixKeepsAbsolute(a: string, b: string)
    ensures IsAbsolute(a) ==> IsAbsolute(a + b)
  {
    if StartsWith(a, "http://") {
      assert (a + b)[..7] == a[..7];
    }
    if StartsWith(a, "https://") {
      assert (a + b)[..8] == a[..8];
    }
  }

  /** Normalising an already normalised URL changes nothing, when the origin is absolute. */
  lemma FullUrlIdempotent(url: Option<string>, origin: string, basePath: Option<string>)
    requires IsAbsolute(origin)
    ensures FullUrl(Some(FullUrl(url, origin, basePath)), origin, basePath) == FullUrl(url, origin, basePath)
  {
  }

  /** `getFullJolokiaUrl`: the full form of the (cached or discovered) URL; rejects when
      resolving the URL does. */
  function GetFullJolokiaUrl(s: Service, env: Environment, origin: string, basePath: Option<string>)
    : (r: Step<Result<string, string>>)
    ensures r.service == GetJolokiaUrl(s, env).service
    ensures r.value.Success? <==> GetJolokiaUrl(s, env).value.Success?
    ensures r.value.Success? ==> r.value.value == FullUrl(GetJolokiaUrl(s, env).value.value, origin, basePath)
  {
    var u := GetJolokiaUrl(s, env);
    match u.value
    case Failure(e) => Step(u.service, Failure(e))
    case Success(url) => Step(u.service, Success(FullUrl(url, origin, basePath)))
  }

  /** The client is built once: asking again returns the same outcome and changes nothing. */
  lemma GetJolokiaMemoised(s: Service, env: Environment, env': Environment)
    ensures var first := GetJolokia(s, env);
            GetJolokia(first.service, env') == first
  {
  }

  /** A live client whose update rate cannot be read is never handed out: asking for the list
      method rejects, and so does listing, without a call; the negotiation has still run. */
  lemma UnreadableRateRejectsClient(s: Service, env: Environment, path: Option<string>, maxDepth: Option<int>,
                                    reply: Reply<Json>)
    requires s.client.None?
    requires Started(CreateJolokia(s, env).value) && Preferences.LoadUpdateRate(env.store).None?
    ensures GetListMethod(s, env).value == Failure(UpdateRateUnreadable)
    ensures GetListMethod(s, env).service.config == CreateJolokia(s, env).service.config
    ensures List(s, env, path, maxDepth, reply).value == (None, Rejected(Message(UpdateRateUnreadable)))
  {
  }

  /** After a reset the next request discovers the URL again and renegotiates from the
      default method: the list method is optimised exactly when a live client was built and
      started and the registry's list reply has an object-valued `op`. */
  lemma ResetRenegotiates(s: Service, env: Environment)
    ensures GetJolokiaUrl(Reset(s), env).value == Resolve(env).url
    ensures var r := GetListMethod(Reset(s), env);
            r.value == Success(Optimised) <==>
              && Resolve(env).url.Success? && Truthy(Resolve(env).url.value)
              && Preferences.LoadJolokiaStoredOptions(env.store).Some?
              && Preferences.LoadUpdateRate(env.store).Some?
              && env.registryList.Ok? && HasOperations(env.registryList.value)
  {
  }
}

=== FILE: sysprops.dfy ===
/** The list logic of the system-properties view: a live search on one attribute,
    filter chips of the form `attribute:term` that narrow the list further, and
    pagination. Text matching is case-insensitive substring matching. */
module SysProps {

  /** A system property of the inspected JVM. */
  datatype Property = Property(key: string, value: string)

  /** The attribute whose chips and searches match the key; any other matches the value. */
  const NameAttribute: string := "name"

  // ---------------------------------------------------------------------------
  // Filtering a sequence
  // ---------------------------------------------------------------------------

  /** `a` is `b` with some elements left out, the rest in their order. */
  predicate IsSubsequence<T(==)>(a: seq<T>, b: seq<T>)
    decreases |b|
  {
    if |a| == 0 then true
    else if |b| == 0 then false
    else if a[0] == b[0] then IsSubsequence(a[1..], b[1..])
    else IsSubsequence(a, b[1..])
  }

  /** `xs.filter(f)`: the elements satisfying f, in order. */
  function Keep<T>(xs: seq<T>, f: T -> bool): (r: seq<T>)
    ensures |r| <= |xs|
    decreases |xs|
  {
    if |xs| == 0 then []
    else if f(xs[0]) then [xs[0]] + Keep(xs[1..], f)
    else Keep(xs[1..], f)
  }

  /** Both f and g. */
  function Both<T>(f: T -> bool, g: T -> bool): T -> bool {
    x => f(x) && g(x)
  }

  /** `Keep` leaves out the elements failing f and keeps the others, in order and each as
      often as in xs. */
  lemma {:induction false} KeepContents<T(!new)>(xs: seq<T>, f: T -> bool)
    ensures IsSubsequence(Keep(xs, f), xs)
    ensures forall i :: 0 <= i < |Keep(xs, f)| ==> f(Keep(xs, f)[i])
    ensures forall x :: multiset(Keep(xs, f))[x] == if f(x) then multiset(xs)[x] else 0
    decreases |xs|
  {
    if |xs| > 0 {
      KeepContents(xs[1..], f);
      assert xs == [xs[0]] + xs[1..];
      var rest := Keep(xs[1..], f);
      if f(xs[0]) {
        assert ([xs[0]] + rest)[1..] == rest;
      }
    }
  }

  /** Filtering twice is filtering once by both predicates. */
  lemma {:induction false} KeepKeep<T>(xs: seq<T>, f: T -> bool, g: T -> bool)
    ensures Keep(Keep(xs, f), g) == Keep(xs, Both(f, g))
    decreases |xs|
  {
    if |xs| > 0 {
      KeepKeep(xs[1..], f, g);
      if f(xs[0]) {
        assert ([xs[0]] + Keep(xs[1..], f))[1..] == Keep(xs[1..], f);
      }
    }
  }

  lemma {:induction false} KeepSame<T(!new)>(xs: seq<T>, f: T -> bool, g: T -> bool)
    requires forall x :: f(x) == g(x)
    ensures Keep(xs, f) == Keep(xs, g)
    decreases |xs|
  {
    if |xs| > 0 {
      KeepSame(xs[1..], f, g);
    }
  }

  lemma {:induction false} KeepAll<T(!new)>(xs: seq<T>, f: T -> bool)
    requires forall x :: f(x)
    ensures Keep(xs, f) == xs
    decreases |xs|
  {
    if |xs| > 0 {
      KeepAll(xs[1..], f);
      assert xs == [xs[0]] + xs[1..];
    }
  }

  // ---------------------------------------------------------------------------
  // Case-insensitive substring matching
  // ---------------------------------------------------------------------------

  function LowerChar(c: char): char {
    if 'A' <= c <= 'Z' then (c as int + 32) as char else c
  }

  /** `toLowerCase`, for ASCII letters. */
  function Lower(s: string): (r: string)
    ensures |r| == |s|
    ensures forall i :: 0 <= i < |s| ==> r[i] == LowerChar(s[i])
  {
    seq(|s|, i requires 0 <= i < |s| => LowerChar(s[i]))
  }

  /** `t` occurs in `s` at index i. */
  ghost predicate OccursAt(s: string, t: string, i: int) {
    0 <= i && i + |t| <= |s| && s[i..i + |t|] == t
  }

  /** `s.includes(t)`. */
  function Includes(s: string, t: string): bool
    decreases |s|
  {
    if |t| > |s| then false
    else if s[..|t|] == t then true
    else Includes(s[1..], t)
  }

  /** `Includes` finds exactly the occurrences of t in s. */
  lemma {:induction false} IncludesIffOccurs(s: string, t: string)
    ensures Includes(s, t) <==> exists i :: OccursAt(s, t, i)
    decreases |s|
  {
    if |t| > |s| {
    } else if s[..|t|] == t {
      assert OccursAt(s, t, 0);
    } else {
      IncludesIffOccurs(s[1..], t);
      if Includes(s[1..], t) {
        var j :| OccursAt(s[1..], t, j);
        assert s[j + 1..j + 1 + |t|] == s[1..][j..j + |t|];
        assert OccursAt(s, t, j + 1);
      }
      if i :| OccursAt(s, t, i) {
        assert i != 0;
        assert s[1..][i - 1..i - 1 + |t|] == s[i..i + |t|];
        assert OccursAt(s[1..], t, i - 1);
      }
    }
  }

  /** The compared text: the key under the name attribute, the value otherwise. */
  function Field(p: Property, attribute: string): string {
    if attribute == NameAttribute then p.key else p.value
  }

  /** The match rule of both the search and the chips. */
  predicate Matches(p: Property, attribute: string, term: string) {
    Includes(Lower(Field(p, attribute)), Lower(term))
  }

  lemma EmptyTermMatches(p: Property, attribute: string)
    ensures Matches(p, attribute, "")
  {
    assert Lower(Field(p, attribute))[..0] == Lower("");
  }

  // ---------------------------------------------------------------------------
  // Chips
  // ---------------------------------------------------------------------------

  /** Index of the first ':' in s, or |s| when there is none. */
  function ColonIndex(s: string): (k: nat)
    ensures k <= |s|
    ensures forall i :: 0 <= i < k ==> s[i] != ':'
    ensures k < |s| ==> s[k] == ':'
    decreases |s|
  {
    if |s| == 0 || s[0] == ':' then 0 else 1 + ColonIndex(s[1..])
  }

  predicate NoColon(s: string) {
    forall i :: 0 <= i < |s| ==> s[i] != ':'
  }

  /** The chip `addToFilters` creates. */
  function ChipText(attribute: string, term: string): string {
    attribute + ":" + term
  }

  /** The chip's attribute and term as the view reads them, `split(':')[0]` and
      `split(':')[1] ?? ''`: the term stops at a second ':'. */
  function ParseChipAsWritten(chip: string): (r: (string, string))
    ensures NoColon(r.0) && NoColon(r.1)
  {
    var i := ColonIndex(chip);
    if i == |chip| then (chip, "")
    else
      var rest := chip[i + 1..];
      (chip[..i], rest[..ColonIndex(rest)])
  }

  /** The chip's attribute and term with the term taken as everything after the first ':'. */
  function ParseChip(chip: string): (r: (string, string))
    ensures NoColon(r.0)
    ensures ColonIndex(chip) < |chip| ==> chip == ChipText(r.0, r.1)
    ensures ColonIndex(chip) == |chip| ==> r == (chip, "")
  {
    var i := ColonIndex(chip);
    if i == |chip| then (chip, "")
    else
      assert chip == chip[..i] + ":" + chip[i + 1..];
      (chip[..i], chip[i + 1..])
  }

  lemma ColonIndexOfChip(attribute: string, term: string)
    requires NoColon(attribute)
    ensures ColonIndex(ChipText(attribute, term)) == |attribute|
  {
    var c := ChipText(attribute, term);
    assert c[|attribute|] == ':';
    assert forall i :: 0 <= i < |attribute| ==> c[i] == attribute[i];
  }

  /** Reading a chip back gives the attribute and the whole term it was made from. */
  lemma ChipRoundTrip(attribute: string, term: string)
    requires NoColon(attribute)
    ensures ParseChip(ChipText(attribute, term)) == (attribute, term)
  {
    var c := ChipText(attribute, term);
    ColonIndexOfChip(attribute, term);
    assert c[..|attribute|] == attribute;
    assert c[|attribute| + 1..] == term;
  }

  /** Both readings agree on chips with at most one ':' after the attribute. */
  lemma ParsersAgree(attribute: string, term: string)
    requires NoColon(attribute) && NoColon(term)
    ensures ParseChipAsWritten(ChipText(attribute, term)) == ParseChip(ChipText(attribute, term))
  {
    var c := ChipText(attribute, term);
    ColonIndexOfChip(attribute, term);
    ChipRoundTrip(attribute, term);
    var rest := c[|attribute| + 1..];
    assert rest == term;
    assert NoColon(rest);
    assert ColonIndex(rest) == |rest|;
    assert rest[..|rest|] == rest;
  }

  /** As the view reads a chip, its term ends at the first ':' inside it. */
  lemma ChipAsWrittenTruncates(attribute: string, before: string, after: string)
    requires NoColon(attribute) && NoColon(before)
    ensures ParseChipAsWritten(ChipText(attribute, before + ":" + after)) == (attribute, before)
  {
    var term := before + ":" + after;
    var c := ChipText(attribute, term);
    ColonIndexOfChip(attribute, term);
    var rest := c[|attribute| + 1..];
    assert rest == term;
    assert term == ChipText(before, after);
    ColonIndexOfChip(before, after);
    assert c[..|attribute|] == attribute;
    assert rest[..|before|] == before;
  }

  /** The chip made from a search for "http://x" on values filters on "http" as the view reads
      it, and on the whole "http://x" as it was made. */
  lemma ChipAsWrittenLosesTerm()
    ensures ParseChipAsWritten(ChipText("value", "http://x")) == ("value", "http")
    ensures ParseChip(ChipText("value", "http://x")) == ("value", "http://x")
  {
    assert NoColon("value") && NoColon("http");
    assert "http://x" == "http" + ":" + "//x";
    ChipAsWrittenTruncates("value", "http", "//x");
    ChipRoundTrip("value", "http://x");
  }

  // ---------------------------------------------------------------------------
  // The filtered list
  // ---------------------------------------------------------------------------

  /** How a chip is read into its attribute and term. */
  type ChipReader = string -> (string, string)

  /** Whether a property passes one chip. */
  predicate ChipMatches(read: ChipReader, chip: string, p: Property) {
    Matches(p, read(chip).0, read(chip).1)
  }

  /** Whether a property passes every chip. */
  predicate AllChipsMatch(read: ChipReader, chips: seq<string>, p: Property)
    decreases |chips|
  {
    |chips| == 0 || (ChipMatches(read, chips[0], p) && AllChipsMatch(read, chips[1..], p))
  }

  lemma {:induction false} AllChipsMatchAppend(read: ChipReader, chips: seq<string>, chip: string, p: Property)
    ensures AllChipsMatch(read, chips + [chip], p) == (AllChipsMatch(read, chips, p) && ChipMatches(read, chip, p))
    decreases |chips|
  {
    if |chips| > 0 {
      assert (chips + [chip])[1..] == chips[1..] + [chip];
      AllChipsMatchAppend(read, chips[1..], chip, p);
    }
  }

  /** The predicates the view filters with. */
  function TermFilter(attribute: string, term: string): Property -> bool {
    p => Matches(p, attribute, term)
  }

  function ChipFilter(read: ChipReader, chip: string): Property -> bool {
    p => ChipMatches(read, chip, p)
  }

  function ChipsFilter(read: ChipReader, chips: seq<string>): Property -> bool {
    p => AllChipsMatch(read, chips, p)
  }

  /** The live search: the whole list for an empty term, the matching properties otherwise. */
  function Search(properties: seq<Property>, term: string, attribute: string): (r: seq<Property>)
    ensures forall i :: 0 <= i < |r| ==> Matches(r[i], attribute, term)
    ensures forall p :: multiset(r)[p] == if Matches(p, attribute, term) then multiset(properties)[p] else 0
  {
    if term == "" then
      assert forall p :: Matches(p, attribute, term) by {
        forall p ensures Matches(p, attribute, term) { EmptyTermMatches(p, attribute); }
      }
      properties
    else
      KeepContents(properties, TermFilter(attribute, term));
      Keep(properties, TermFilter(attribute, term))
  }

  /** The chips, applied one after another, each filtering the previous result. */
  function ApplyChips(read: ChipReader, filtered: seq<Property>, chips: seq<string>): (r: seq<Property>)
    ensures |r| <= |filtered|
    decreases |chips|
  {
    if |chips| == 0 then filtered
    else ApplyChips(read, Keep(filtered, ChipFilter(read, chips[0])), chips[1..])
  }

  /** The list `handleSearch` computes, with chips read by `read`. */
  function FilterWith(read: ChipReader, properties: seq<Property>, term: string, attribute: string, chips: seq<string>): seq<Property> {
    ApplyChips(read, Search(properties, term, attribute), chips)
  }

  /** The list `handleSearch` computes with the whole term of each chip: the properties
      matching the search and every chip so read, in load order. */
  function Filter(properties: seq<Property>, term: string, attribute: string, chips: seq<string>): (r: seq<Property>)
    ensures IsSubsequence(r, properties)
    ensures forall p :: multiset(r)[p]
                     == if Matches(p, attribute, term) && AllChipsMatch(ParseChip, chips, p) then multiset(properties)[p] else 0
  {
    FilterContents(ParseChip, properties, term, attribute, chips);
    FilterWith(ParseChip, properties, term, attribute, chips)
  }

  /** The list `handleSearch` computes as the view reads chips: a chip's term ends at its
      second ':'. */
  function FilterAsWritten(properties: seq<Property>, term: string, attribute: string, chips: seq<string>): (r: seq<Property>)
    ensures IsSubsequence(r, properties)
    ensures forall p :: multiset(r)[p]
                     == if Matches(p, attribute, term) && AllChipsMatch(ParseChipAsWritten, chips, p) then multiset(properties)[p] else 0
  {
    FilterContents(ParseChipAsWritten, properties, term, attribute, chips);
    FilterWith(ParseChipAsWritten, properties, term, attribute, chips)
  }

  lemma SearchIsKeep(properties: seq<Property>, term: string, attribute: string)
    ensures Search(properties, term, attribute) == Keep(properties, TermFilter(attribute, term))
  {
    if term == "" {
      forall p ensures TermFilter(attribute, term)(p) { EmptyTermMatches(p, attribute); }
      KeepAll(properties, TermFilter(attribute, term));
    }
  }

  /** Applying the chips one by one is one filter by all of them. */
  lemma {:induction false} ApplyChipsIsKeep(read: ChipReader, xs: seq<Property>, chips: seq<string>)
    ensures ApplyChips(read, xs, chips) == Keep(xs, ChipsFilter(read, chips))
    decreases |chips|
  {
    if |chips| == 0 {
      KeepAll(xs, ChipsFilter(read, chips));
    } else {
      var first := ChipFilter(read, chips[0]);
      ApplyChipsIsKeep(read, Keep(xs, first), chips[1..]);
      KeepKeep(xs, first, ChipsFilter(read, chips[1..]));
      KeepSame(xs, Both(first, ChipsFilter(read, chips[1..])), ChipsFilter(read, chips));
    }
  }

  /** The computed list is one filter of the properties by the search term and every chip. */
  lemma FilterIsOneKeep(read: ChipReader, properties: seq<Property>, term: string, attribute: string, chips: seq<string>)
    ensures FilterWith(read, properties, term, attribute, chips)
         == Keep(properties, Both(TermFilter(attribute, term), ChipsFilter(read, chips)))
  {
    SearchIsKeep(properties, term, attribute);
    ApplyChipsIsKeep(read, Keep(properties, TermFilter(attribute, term)), chips);
    KeepKeep(properties, TermFilter(attribute, term), ChipsFilter(read, chips));
  }

  /** A property appears in the list exactly when it matches the search and every chip,
      as often as it is among the properties; the list keeps their order. */
  lemma FilterContents(read: ChipReader, properties: seq<Property>, term: string, attribute: string, chips: seq<string>)
    ensures IsSubsequence(FilterWith(read, properties, term, attribute, chips), properties)
    ensures forall p :: multiset(FilterWith(read, properties, term, attribute, chips))[p]
                     == if Matches(p, attribute, term) && AllChipsMatch(read, chips, p) then multiset(properties)[p] else 0
  {
    var f := Both(TermFilter(attribute, term), ChipsFilter(read, chips));
    FilterIsOneKeep(read, properties, term, attribute, chips);
    KeepContents(properties, f);
    assert forall p :: f(p) == (Matches(p, attribute, term) && AllChipsMatch(read, chips, p));
  }

  /** An extra chip never lets a property back in. */
  lemma ChipNarrows(read: ChipReader, properties: seq<Property>, term: string, attribute: string,
                    chips: seq<string>, chip: string)
    ensures var before := FilterWith(read, properties, term, attribute, chips);
            var after := FilterWith(read, properties, term, attribute, chips + [chip]);
            IsSubsequence(after, before) && forall p :: multiset(after)[p] <= multiset(before)[p]
  {
    var both := Both(TermFilter(attribute, term), ChipsFilter(read, chips));
    var extra := ChipFilter(read, chip);
    FilterIsOneKeep(read, properties, term, attribute, chips);
    FilterIsOneKeep(read, properties, term, attribute, chips + [chip]);
    KeepKeep(properties, both, extra);
    forall p ensures Both(both, extra)(p) == Both(TermFilter(attribute, term), ChipsFilter(read, chips + [chip]))(p) {
      AllChipsMatchAppend(read, chips, chip, p);
    }
    KeepSame(properties, Both(both, extra), Both(TermFilter(attribute, term), ChipsFilter(read, chips + [chip])));
    KeepContents(Keep(properties, both), extra);
  }

  // ---------------------------------------------------------------------------
  // The view state and its handlers
  // ---------------------------------------------------------------------------

  /** The state of the system-properties view. */
  datatype View = View(
    properties: seq<Property>,  // as loaded
    filtered: seq<Property>,    // the list the table and the pager show
    page: int,
    perPage: int,
    searchTerm: string,
    filters: seq<string>,       // the chips
    attribute: string)          // the attribute selected in the drop-down

  const DefaultPerPage: int := 20

  /** The shown list is the one the search term, the attribute and the chips compute when
      each chip is read by `read` (`ParseChipAsWritten` is the view's own reading). */
  predicate Consistent(read: ChipReader, v: View) {
    v.filtered == FilterWith(read, v.properties, v.searchTerm, v.attribute, v.filters)
  }

  /** The view once the properties have loaded: the whole list shown, no term, no chips,
      the pager on its first page. */
  function Loaded(read: ChipReader, properties: seq<Property>): (v: View)
    ensures Consistent(read, v) && v.properties == properties && v.filtered == properties
    ensures v.page == 1 && v.perPage == DefaultPerPage && v.searchTerm == "" && v.filters == []
  {
    SearchIsKeep(properties, "", NameAttribute);
    View(properties, properties, 1, DefaultPerPage, "", [], NameAttribute)
  }

  /** `handleSearch(value, attribute, chips)`, each chip read by `read`: sets the search term,
      goes back to the first page and shows the properties matching the term and every chip. */
  function HandleSearch(read: ChipReader, v: View, value: string, attribute: string, chips: seq<string>): (r: View)
    ensures r.searchTerm == value && r.page == 1
    ensures r.properties == v.properties && r.filters == v.filters && r.attribute == v.attribute
    ensures r.perPage == v.perPage
    ensures IsSubsequence(r.filtered, v.properties)
    ensures forall p :: multiset(r.filtered)[p]
                     == if Matches(p, attribute, value) && AllChipsMatch(read, chips, p) then multiset(v.properties)[p] else 0
  {
    FilterContents(read, v.properties, value, attribute, chips);
    v.(searchTerm := value, page := 1, filtered := FilterWith(read, v.properties, value, attribute, chips))
  }

  /** Typing in the search box. */
  function OnSearchChange(read: ChipReader, v: View, value: string): (r: View)
    ensures Consistent(read, r) && r.searchTerm == value && r.filters == v.filters && r.attribute == v.attribute
    ensures r.properties == v.properties && r.perPage == v.perPage && r.page == 1
  {
    HandleSearch(read, v, value, v.attribute, v.filters)
  }

  /** Picking an attribute in the drop-down re-runs the search on it. */
  function SelectAttribute(read: ChipReader, v: View, attribute: string): (r: View)
    ensures Consistent(read, r) && r.attribute == attribute && r.searchTerm == v.searchTerm && r.filters == v.filters
    ensures r.properties == v.properties && r.perPage == v.perPage && r.page == 1
  {
    HandleSearch(read, v.(attribute := attribute), v.searchTerm, attribute, v.filters)
  }

  /** `addToFilters`: turns the search into a chip and empties the search box; the shown list
      is left as it is. */
  function AddToFilters(v: View): (r: View)
    ensures r.filters == v.filters + [ChipText(v.attribute, v.searchTerm)]
    ensures r.searchTerm == "" && r.filtered == v.filtered && r.page == v.page
    ensures r.properties == v.properties && r.perPage == v.perPage && r.attribute == v.attribute
  {
    v.(filters := v.filters + [ChipText(v.attribute, v.searchTerm)], searchTerm := "")
  }

  /** Every chip but `chip`. */
  function Other(chip: string): string -> bool {
    c => c != chip
  }

  /** `onDeleteFilter(chip)`: drops every copy of the chip, keeps the others in order and
      recomputes the list. */
  function DeleteFilter(read: ChipReader, v: View, chip: string): (r: View)
    ensures Consistent(read, r) && r.page == 1 && r.searchTerm == v.searchTerm
    ensures r.properties == v.properties && r.perPage == v.perPage && r.attribute == v.attribute
    ensures chip !in r.filters
    ensures IsSubsequence(r.filters, v.filters)
    ensures forall c :: c != chip ==> multiset(r.filters)[c] == multiset(v.filters)[c]
  {
    var chips := Keep(v.filters, Other(chip));
    KeepContents(v.filters, Other(chip));
    assert multiset(chips)[chip] == 0;
    HandleSearch(read, v.(filters := chips), v.searchTerm, v.attribute, chips)
  }

  /** `clearFilters`: no chips, no search term, the whole list on the first page. */
  function ClearFilters(read: ChipReader, v: View): (r: View)
    ensures Consistent(read, r) && r.filters == [] && r.searchTerm == "" && r.page == 1
    ensures r.filtered == v.properties
    ensures r.properties == v.properties && r.perPage == v.perPage && r.attribute == v.attribute
  {
    SearchIsKeep(v.properties, "", v.attribute);
    HandleSearch(read, v.(filters := [], searchTerm := ""), "", v.attribute, [])
  }

  /** The pager's page selection. */
  function SetPage(read: ChipReader, v: View, page: int): (r: View)
    ensures r.page == page && r.filtered == v.filtered && (Consistent(read, v) ==> Consistent(read, r))
    ensures r.properties == v.properties && r.perPage == v.perPage && r.searchTerm == v.searchTerm
    ensures r.filters == v.filters && r.attribute == v.attribute
  {
    v.(page := page)
  }

  /** The pager's page-size selection, which goes back to the first page. */
  function SetPerPage(read: ChipReader, v: View, perPage: int): (r: View)
    ensures r.perPage == perPage && r.page == 1 && r.filtered == v.filtered
    ensures r.properties == v.properties && r.searchTerm == v.searchTerm
    ensures r.filters == v.filters && r.attribute == v.attribute
    ensures Consistent(read, v) ==> Consistent(read, r)
  {
    v.(perPage := perPage, page := 1)
  }

  /** Making a chip of the search keeps the shown list the one the chips compute: the chip's
      term is the whole search term. */
  lemma AddToFiltersKeepsConsistent(v: View)
    requires Consistent(ParseChip, v) && NoColon(v.attribute)
    ensures Consistent(ParseChip, AddToFilters(v))
  {
    var chip := ChipText(v.attribute, v.searchTerm);
    var chips := v.filters + [chip];
    var before := Both(TermFilter(v.attribute, v.searchTerm), ChipsFilter(ParseChip, v.filters));
    var after := Both(TermFilter(v.attribute, ""), ChipsFilter(ParseChip, chips));
    ChipRoundTrip(v.attribute, v.searchTerm);
    FilterIsOneKeep(ParseChip, v.properties, v.searchTerm, v.attribute, v.filters);
    FilterIsOneKeep(ParseChip, v.properties, "", v.attribute, chips);
    forall p ensures after(p) == before(p) {
      EmptyTermMatches(p, v.attribute);
      AllChipsMatchAppend(ParseChip, v.filters, chip, p);
    }
    KeepSame(v.properties, after, before);
  }

  /** The two properties of the example below: the value "a:b" and the value "a". */
  const LongValue := Property("x", "a:b")
  const ShortValue := Property("y", "a")

  lemma ExampleMatches()
    ensures Matches(LongValue, "value", "a:b") && !Matches(ShortValue, "value", "a:b")
    ensures Matches(LongValue, "value", "a") && Matches(ShortValue, "value", "a")
  {
    assert Lower("a:b") == "a:b";
    assert Lower("a") == "a";
    assert "a:b"[..3] == "a:b";
    assert "a:b"[..1] == "a";
    assert "a"[..1] == "a";
  }

  lemma ExampleChip()
    ensures ParseChipAsWritten(ChipText("value", "a:b")) == ("value", "a")
  {
    assert NoColon("value") && NoColon("a");
    assert "a:b" == "a" + ":" + "b";
    ChipAsWrittenTruncates("value", "a", "b");
  }

  /** As the view reads chips, turning the search "a:b" on values into a chip leaves a list
      the chips no longer compute, and the next recomputation shows a property whose value is
      only "a": the list widens from one property to two. */
  lemma AddToFiltersAsWrittenWidens()
    ensures var v := View([LongValue, ShortValue], [LongValue], 1, DefaultPerPage, "a:b", [], "value");
            && Consistent(ParseChipAsWritten, v)
            && var w := AddToFilters(v);
               && !Consistent(ParseChipAsWritten, w)
               && OnSearchChange(ParseChipAsWritten, w, "").filtered == v.properties
  {
    var props := [LongValue, ShortValue];
    var chip := ChipText("value", "a:b");
    ExampleMatches();
    ExampleChip();
    assert props[1..] == [ShortValue];
    assert [ShortValue][1..] == [];
    assert Keep(props, TermFilter("value", "a:b")) == [LongValue];
    assert Search(props, "", "value") == props;
    assert ChipMatches(ParseChipAsWritten, chip, LongValue) && ChipMatches(ParseChipAsWritten, chip, ShortValue);
    assert Keep(props, ChipFilter(ParseChipAsWritten, chip)) == props;
    assert [chip][1..] == [];
    assert ApplyChips(ParseChipAsWritten, props, [chip]) == props;
    var w := AddToFilters(View(props, [LongValue], 1, DefaultPerPage, "a:b", [], "value"));
    assert w.filters == [chip] && w.searchTerm == "";
  }

  // ---------------------------------------------------------------------------
  // Pagination
  // ---------------------------------------------------------------------------

  function Min(a: int, b: int): int { if a <= b then a else b }

  /** How `Array.prototype.slice` reads an index: negative counts from the end, and the
      result is clamped to [0, len]. */
  function SliceIndex(i: int, len: nat): (r: nat)
    ensures r <= len
  {
    if i < 0 then (if len + i < 0 then 0 else len + i)
    else if i > len then len
    else i
  }

  /** `items.slice(start, end)`. */
  function JsSlice<T>(items: seq<T>, start: int, end: int): seq<T> {
    var a := SliceIndex(start, |items|);
    var b := SliceIndex(end, |items|);
    if a < b then items[a..b] else []
  }

  /** The index of the first row of a page, `(page - 1) * perPage`, counted out page by page. */
  function PageStart(page: int, perPage: int): (start: int)
    ensures page >= 1 && perPage >= 0 ==> start >= 0
    decreases if page >= 1 then page - 1 else 1 - page
  {
    if page == 1 then 0
    else if page > 1 then PageStart(page - 1, perPage) + perPage
    else PageStart(page + 1, perPage) - perPage
  }

  lemma {:induction false} PageStartIsProduct(page: int, perPage: int)
    ensures PageStart(page, perPage) == (page - 1) * perPage
    decreases if page >= 1 then page - 1 else 1 - page
  {
    if page > 1 {
      PageStartIsProduct(page - 1, perPage);
    } else if page < 1 {
      PageStartIsProduct(page + 1, perPage);
    }
  }

  /** Between non-negative bounds, `slice` is the part of the range inside the sequence. */
  lemma JsSliceInRange<T>(items: seq<T>, start: int, end: int)
    requires 0 <= start <= end
    ensures JsSlice(items, start, end) == items[Min(start, |items|)..Min(end, |items|)]
    ensures |JsSlice(items, start, end)| <= end - start
  {
  }

  /** `getPageProperties`: the slice of the list that page `page` shows, `perPage` rows from
      row `(page - 1) * perPage`. */
  function PageOf<T>(items: seq<T>, page: int, perPage: int): (r: seq<T>)
    ensures page >= 1 && perPage >= 1 ==>
              && |r| <= perPage
              && r == items[Min(PageStart(page, perPage), |items|)..Min(PageStart(page + 1, perPage), |items|)]
  {
    var start := PageStart(page, perPage);
    var r := JsSlice(items, start, start + perPage);
    assert page >= 1 && perPage >= 1 ==>
             |r| <= perPage && r == items[Min(start, |items|)..Min(PageStart(page + 1, perPage), |items|)] by {
      if page >= 1 && perPage >= 1 {
        JsSliceInRange(items, start, start + perPage);
      }
    }
    r
  }

  /** `r` is the window of `size` rows of `items` from row `start`, cut off at the end. */
  ghost predicate IsWindow<T>(items: seq<T>, r: seq<T>, start: int, size: int) {
    && 0 <= start
    && |r| == (if start >= |items| then 0 else Min(size, |items| - start))
    && forall i :: 0 <= i < |r| ==> start + i < |items| && r[i] == items[start + i]
  }

  /** `getPageProperties`: the rows of the current page, `perPage` rows of the shown list from
      row (page - 1) * perPage. */
  function PageProperties(v: View): (r: seq<Property>)
    ensures v.page >= 1 && v.perPage >= 1 ==> IsWindow(v.filtered, r, (v.page - 1) * v.perPage, v.perPage)
  {
    var r := PageOf(v.filtered, v.page, v.perPage);
    assert v.page >= 1 && v.perPage >= 1 ==> IsWindow(v.filtered, r, (v.page - 1) * v.perPage, v.perPage) by {
      if v.page >= 1 && v.perPage >= 1 {
        PageStartIsProduct(v.page, v.perPage);
        PageWindow(v.filtered, PageStart(v.page, v.perPage), v.perPage);
      }
    }
    r
  }

  /** A page is the window of `perPage` rows from its first row. */
  lemma PageWindow<T>(items: seq<T>, start: int, perPage: int)
    requires start >= 0 && perPage >= 1
    ensures IsWindow(items, JsSlice(items, start, start + perPage), start, perPage)
  {
    JsSliceInRange(items, start, start + perPage);
  }

  /** Pages 1 to k, one after another. */
  function PagesUpTo<T>(items: seq<T>, k: nat, perPage: int): seq<T> {
    if k == 0 then [] else PagesUpTo(items, k - 1, perPage) + PageOf(items, k, perPage)
  }

  lemma ConcatSlices<T>(items: seq<T>, a: int, b: int)
    requires 0 <= a <= b <= |items|
    ensures items[..a] + items[a..b] == items[..b]
  {
  }

  /** Pages 1 to k show every item before page k + 1, in order, with nothing skipped or shown twice. */
  lemma {:induction false} PagesCover<T>(items: seq<T>, k: nat, perPage: int)
    requires perPage >= 1
    ensures 0 <= PageStart(k + 1, perPage)
    ensures PagesUpTo(items, k, perPage) == items[..Min(PageStart(k + 1, perPage), |items|)]
  {
    if k > 0 {
      PagesCover(items, k - 1, perPage);
      var a := Min(PageStart(k, perPage), |items|);
      var b := Min(PageStart(k + 1, perPage), |items|);
      assert PageOf(items, k, perPage) == items[a..b];
      ConcatSlices(items, a, b);
    }
  }

  /** Once k pages hold every item, pages 1 to k show exactly the list. */
  lemma AllPages<T>(items: seq<T>, k: nat, perPage: int)
    requires perPage >= 1 && k * perPage >= |items|
    ensures PagesUpTo(items, k, perPage) == items
  {
    PagesCover(items, k, perPage);
    PageStartIsProduct(k + 1, perPage);
  }

  lemma DivMod(i: nat, d: int)
    requires d >= 1
    ensures (i / d) * d + i % d == i && 0 <= i % d < d
  {
  }

  /** Item i is on page i / perPage + 1, at row i % perPage. */
  lemma ItemOnItsPage<T>(items: seq<T>, i: nat, perPage: int)
    requires i < |items| && perPage >= 1
    ensures var page := i / perPage + 1;
            i % perPage < |PageOf(items, page, perPage)| && PageOf(items, page, perPage)[i % perPage] == items[i]
  {
    var q, row := i / perPage, i % perPage;
    DivMod(i, perPage);
    PageStartIsProduct(q + 1, perPage);
    PageStartIsProduct(q + 2, perPage);
    var start := q * perPage;
    assert PageStart(q + 1, perPage) == start;
    assert PageStart(q + 2, perPage) == start + perPage;
  }
}

=== FILE: wrappers.dfy ===
/** Option and Result, the two failure-carrying datatypes the model uses for
    JavaScript's `null`/`undefined` and for promises that reject. */
module Wrappers {

  /** A value that may be absent (`undefined` or `null` in the source). */
  datatype Option<+T> = None | Some(value: T) {

    /** Returns the value in Some, or `default` when None. */
    function GetOr(default: T): T {
      match this
      case Some(v) => v
      case None => default
    }
  }

  /** JavaScript truthiness of an optional string: present and not the empty string. */
  predicate Truthy(s: Option<string>) {
    s.Some? && s.value != ""
  }

  /** A computation that either produced a value or failed with an error. */
  datatype Result<+R, +E> = Success(value: R) | Failure(error: E)
}
